=== FILE: README.md ===
# Survex .3d rose decoder, modelled in Dafny

`rose_create.py` is an Inkscape extension that draws a rose diagram from a Survex
`.3d` survey file. The file is a text header followed by a binary item stream. The
script does two things:

- It checks the four header lines and the flags byte.
- It reads the item stream one opcode byte at a time, consuming every record it
  meets. For each LINE record (a survey leg) it tallies the leg by class. For each
  underground leg with horizontal extent, it also deposits the horizontal length
  into the two compass sectors of the leg's bearing and of the reciprocal bearing.

This project models the decoder as total functions over a byte sequence and a
cursor. Each function returns a `Result` whose `Fault` names the Python exception
the script would raise at that point. The modules follow the script's structure:

- `Bytes`: octets and the little-endian `struct` formats `<I` and `<i`.
- `Results`: `Option`, `Result` and the faults.
- `Primitives`: `read_xyz`, `read_len` and `read_label`, each with the encoder it
  inverts.
- `Legs`: leg classes, the ten accumulators, the angle normalisation loops,
  round-half-away sector binning and the sector table.
- `Records`: the record layout as an opcode table, with a parser and an encoder.
- `Decoder`: the script's own chain of range tests (`Step`, `DecodeRecords`),
  proved to agree with the table reader on every input.
- `Streams`: many records in a row, and the end marker.
- `Header`: `readline()`, `rstrip()`, Python 2's `int()`, `decode('utf-8')`, the
  header checks, and the whole file.

The script runs under Python 2, so every header line is a byte string. The model
follows the script where its documented design says otherwise:

- The version is read with `int()`. That accepts surrounding whitespace and a
  sign, not just unsigned digits.
- A sector count below 1 is not refused up front. It fails at the first
  underground leg with horizontal extent, with `ZeroDivisionError` or `IndexError`.
- A label whose text is cut off by the end of the file is not itself an error.
  The fixed-size read that always follows it fails. The exception is a LINE read
  before any MOVE: the missing previous position (`NameError`, line 195) is met
  before that read.
- The sectors receive the horizontal length `lhoriz`, not the slant length `len`
  that the code comment at lines 216-218 mentions.

## Model

| member | source | states |
|---|---|---|
| Bytes.Unsigned | rose_create.py:62 | the `<I`-style little-endian reading of k bytes is a natural number below 256^k |
| Bytes.Signed32 | rose_create.py:54 | the `<i` reading of four bytes is a signed 32-bit value, in [-2^31, 2^31) |
| Bytes.LittleEndian | rose_create.py:62 | the k-byte little-endian encoding of n has k bytes and reads back as n under the `<I` decoding |
| Bytes.UnsignedInjective | rose_create.py:62 | two strings of one width with the same `<I`-style unsigned value are the same string |
| Bytes.Signed32Bytes | rose_create.py:54 | every signed 32-bit value packs into four bytes whose `<i` reading is that value |
| Primitives.ReadExact | rose_create.py:163-186 | a read handed to `unpack` succeeds exactly when n bytes remain, yields those bytes and moves the cursor by n; otherwise it fails as truncated |
| Primitives.ReadUpTo | rose_create.py:73 | `fp.read(n)` yields at most n bytes, read from the cursor, and fewer only when the file ends |
| Primitives.ReadXyz | rose_create.py:52-54 | `read_xyz` succeeds exactly when 12 bytes remain, consumes exactly 12 and yields the three signed 32-bit values of those bytes |
| Primitives.ReadXyzOfPointBytes | rose_create.py:52-54 | any 32-bit point packed as `<iii` is read back unchanged, with the cursor 12 bytes on |
| Primitives.ReadLen | rose_create.py:56-62 | a first byte other than 0xff is the value, in 1 byte; 0xff is followed by the little-endian u32 value, in 5 bytes; a short field fails as truncated |
| Primitives.ReadLenOfEncoding | rose_create.py:56-62 | `read_len` inverts the shortest length encoding of any value below 2^32, consuming it exactly |
| Primitives.LabelHeader | rose_create.py:66-72 | a nonzero first byte gives the delete count as its high nibble and the add count as its low nibble; a zero byte is followed by two length fields; the only refusal is truncation |
| Primitives.LongHeaderReads | rose_create.py:70-72 | after a zero byte the delete count is the first `read_len` and the add count the second, with the text starting where the second ends; the header fails, as truncated, exactly when one of the two reads does |
| Primitives.ReadLabel | rose_create.py:64-74 | `read_label` succeeds exactly when its counts are readable and every added byte is below 0x80; it consumes the counts and then the nadd text bytes, or fewer only at the end of the file; non-ASCII text fails |
| Primitives.ReadLabelOfEncoding | rose_create.py:64-74 | a complete ASCII label field is read back with its counts and text, consuming the whole field in both the packed and the long form |
| Primitives.PackedHeader | rose_create.py:67-69 | a packed count byte yields the counts it was packed from |
| Primitives.LongHeader | rose_create.py:70-72 | a zero byte followed by two length fields yields the counts they hold |
| Legs.ClassOf | rose_create.py:200-211 | defines the class by the script's test order (bit 0x01 surface, else 0x02 duplicate, else 0x04 splay, else underground); its properties are stated by Legs.ClassOfLowBits |
| Legs.ClassOfLowBits | rose_create.py:200-211 | the class depends on the three low flag bits only; a leg is underground exactly when all three are clear, and surface exactly when bit 0x01 is set |
| Legs.EmptyRose | rose_create.py:133-137 | the starting accumulators have `ns` sectors (none when ns < 1), every sector count is 0 and every sector length 0.0, and the sector bookkeeping invariant holds |
| Legs.Tally | rose_create.py:200-211 | one leg of class c raises that class's counter by one and its length by the leg's slant length; every other counter and length is unchanged |
| Legs.RaiseAngle | rose_create.py:223-224 | `while ang < 0: ang += 360` ends with a non-negative angle, below 360 if it started negative, a whole number of turns from the input |
| Legs.LowerAngle | rose_create.py:225-226 | `while ang >= 360: ang -= 360` ends below 360, non-negative if it started so, a whole number of turns from the input |
| Legs.Normalise | rose_create.py:222-226 | both loops in turn give an angle in [0, 360) a whole number of turns from the input |
| Legs.NormaliseUnique | rose_create.py:222-226 | that angle is the only one in [0, 360) a whole number of turns from the input |
| Legs.ReciprocalAngle | rose_create.py:222-226 | the normalised bearing + 180 is the normalised bearing moved half a turn within [0, 360) |
| Legs.RoundHalfAway | rose_create.py:227 | Python 2 `round()`: within half of the input, with halves going away from zero |
| Legs.SectorOf | rose_create.py:227 | the sector index of a normalised angle lies in [0, ns) |
| Legs.SectorOfModulo | rose_create.py:227 | that index is `int(round(ns * ang / 360)) % ns`, Python's modulo included |
| Legs.SectorOfNearest | rose_create.py:227 | the chosen sector's centre, 360 i / ns degrees, is the one nearest the angle; within half a sector of 360 the angle wraps round to sector 0 |
| Legs.Sectors | rose_create.py:222-229 | the two sectors a leg is binned into, for the bearing and the bearing + 180, each lie in [0, ns) |
| Legs.SectorsOpposite | rose_create.py:216-229 | with an even sector count, the second sector is exactly opposite the first, `(i + ns/2) % ns`, so the rose is symmetric |
| Legs.Deposit | rose_create.py:212-229 | a binned leg adds one to `nhoriz` and its horizontal length to `thoriz`; the two sectors (possibly one) gain one count and the length each, other sectors are unchanged, and the sector sums grow by 2 and twice the length |
| Legs.AddLeg | rose_create.py:192-229 | one LINE: exactly one class counter rises, by the flag priority; legs that are not underground, or have no horizontal extent, leave `nhoriz`, `thoriz` and every sector unchanged; binned legs update the two sectors as Deposit says; the sector bookkeeping invariant is preserved; with ns < 1 only a binned leg fails |
| Legs.NorthLegSectors | rose_create.py:220-229 | with 16 sectors, a binned leg with no east delta and a positive north delta, whose bearing is 0 degrees, counts once each in sectors 0 and 8 and adds its horizontal length to both; no other sector changes |
| Legs.WrapAroundSector | rose_create.py:227 | a bearing of 354 degrees with 16 sectors rounds to 16 and wraps to sector 0 |
| Records.KindOf | rose_create.py:148-233 | defines the opcode ranges of the script's chain: 0x00-0x05 style, 0x0f move, 0x10-0x13 date, 0x1f error info, 0x30-0x33 cross-section, 0x40-0x7f line, 0x80-0xff label or node, the rest reserved; Records.EmptyRecords and Decoder.StepMatchesReference state what it implies |
| Records.FixedSize | rose_create.py:157-233 | defines the bytes read after the opcode and any label: 12 for a position, 0, 2, 3 or 4 for the dates, 20 for error info, 16 or 8 for a cross-section by bit 0x02; Records.ParseRecord states that the cursor moves by it |
| Records.HasLabel | rose_create.py:181-233 | defines which records carry a label: every cross-section and label/node, and a LINE without flag 0x20; Records.ParseRecord states that the label is read exactly then |
| Records.EmptyRecords | rose_create.py:148-189 | the records with no payload at all are exactly opcodes 0x00-0x0e, 0x10, 0x14-0x1e, 0x20-0x2f and 0x34-0x3f |
| Records.LabelComplete | rose_create.py:64-74 | a label followed by at least one more byte of the file was read in full |
| Records.ParseXSect | rose_create.py:181-186 | XSECT: read exactly when the label field reads and 16 bytes (opcode bit 0x02) or 8 bytes follow it; the cursor lands after them |
| Records.ParseLine | rose_create.py:191-196 | LINE: read exactly when 12 position bytes follow, after a label field that reads unless bit 0x20 is set; the cursor lands after them |
| Records.ParseNode | rose_create.py:231-233 | LABEL/NODE: read exactly when the label field reads and 12 position bytes follow it; the cursor lands after them |
| Records.ParseRecord | rose_create.py:141-233 | one record by the opcode table: an empty file is a premature end; the cursor moves past 1 opcode byte, plus a label where the table has one, plus the table's fixed payload size; the record read is well formed and carries its opcode; Records.ParseRecordOk states when it is read |
| Records.ParseRecordOk | rose_create.py:141-233 | when a record is read: with no label, exactly when its fixed payload fits; with a label, exactly when the label field reads (any header form, ASCII text) and the fixed payload fits after it |
| Records.ParseEncode | rose_create.py:141-233 | any well-formed record written at the cursor is read back whole, with the cursor just past it |
| Decoder.Initial | rose_create.py:132-137 | the starting state has style 0xff and no position, its sector table is shaped for `ns`, and it satisfies the bookkeeping invariant |
| Decoder.InitialIsEmpty | rose_create.py:133-137 | before the first record every total is zero and every sector is zero |
| Decoder.Step | rose_create.py:139-233 | one pass of the loop: no byte left is a premature end; STYLE 0x00 under style 0x00 stops; only STYLE changes the style; MOVE and LINE set the position to the 12 bytes just read; only LINE touches the accumulators and adds one leg; the invariant is preserved; a missing position or sector table fails only on a LINE |
| Decoder.Discard | rose_create.py:154-233 | the records the script reads and throws away always move the cursor forward, and fail only as truncated or non-ASCII |
| Decoder.Skip | rose_create.py:163-186 | an `unpack` of n discarded bytes succeeds exactly when n bytes remain and moves the cursor by n |
| Decoder.StepLine | rose_create.py:191-229 | a LINE keeps the style, reads 12 position bytes last and adds the leg from the previous position to the new one as AddLeg says; a LINE before any MOVE fails |
| Decoder.DecodeRecords | rose_create.py:139-233 | the loop ends only just past a zero byte with style 0x00; the sector table keeps its shape and invariant; the leg count never falls; its faults are the stream's own; Streams.DecodeFails states that a failing pass fails the loop |
| Decoder.Apply | rose_create.py:148-233 | one parsed record: STYLE sets the style, MOVE and LINE set the position, only LINE tallies a leg, and an applied LINE changes the accumulators exactly as AddLeg does for the leg from the previous position; it fails exactly for a LINE with no position or a binned LINE with ns < 1 |
| Decoder.Reference | rose_create.py:148-233 | one pass read by the opcode table: a record the table cannot read fails with the parser's fault, and a record it reads moves the cursor just past that record |
| Decoder.StepMatchesReference | rose_create.py:148-233 | on every input, the script's chain of range tests and the opcode table read the same record and reach the same state and cursor; they fail for the same reason, except that a LINE with no position that is also cut short is a NameError for the script |
| Decoder.StepOfParsed | rose_create.py:139-233 | a record the table parses and applies without ending the loop is exactly one pass of the script's loop |
| Decoder.LineAgrees | rose_create.py:191-229 | the LINE branch and the table's LINE record agree |
| Decoder.DiscardMatches | rose_create.py:154-189 | for the records the script throws away, its reads end where the table's records end and fail for the same reason |
| Decoder.LineFlagBits | rose_create.py:192-193 | `byte & 0x3f` keeps the no-label flag 0x20 of a LINE opcode |
| Streams.Run | rose_create.py:139-233 | applying records in order keeps the sector table's shape and the bookkeeping invariant |
| Streams.ParseAll | rose_create.py:139-233 | n records read in a row are n well-formed records, and the cursor moves forward |
| Streams.ParseAllUncons | rose_create.py:139-233 | records read in a row are the first record, then the rest read from where it ended |
| Streams.QuietUncons | rose_create.py:139-233 | the first record of a run that neither ends nor fails applies cleanly, and the rest continue the run from its result |
| Streams.DecodeParsed | rose_create.py:139-233 | over records the table reads and applies cleanly, none of them ending the loop, the loop reaches the state that applying them in order gives |
| Streams.EndMarker | rose_create.py:148-152 | two zero bytes end the loop: after one byte when the style is already 0x00, after two otherwise |
| Streams.DecodeTerminated | rose_create.py:132-152 | records followed by the end marker: the loop stops just past the marker with the state those records produce |
| Streams.DecodeFails | rose_create.py:139-233 | records that apply cleanly, then a pass that fails: the loop fails with that pass's fault and never resumes further on |
| Streams.ZeroSetsStyle | rose_create.py:148-152 | a zero byte under any other style only sets the style to 0x00 |
| Streams.MoveThenZero | rose_create.py:148-158 | under style 0x00, a MOVE does not reset the style, so a following zero byte ends the loop with the position the MOVE read |
| Streams.MoveBetweenZeros | rose_create.py:132-158 | from the starting style 0xff, `00 0f <12 bytes> 00` ends the loop at its last byte |
| Streams.SingleZeroIsNotEnough | rose_create.py:141-152 | from style 0xff a lone zero byte only sets the style, and the data then runs out: premature end |
| Header.LineEnd | rose_create.py:102 | `readline()` stops just past a newline, or at the end of the data, and takes at least one byte when any remain |
| Header.LineEndIsFirst | rose_create.py:102 | no newline comes before the one `readline()` stops at |
| Header.LineEndOfLine | rose_create.py:102 | a line without newlines, followed by a newline, is read to just past that newline |
| Header.StripEnd | rose_create.py:102 | `rstrip()` removes exactly the trailing whitespace: what remains is empty or ends in a non-space byte, and only whitespace was removed |
| Header.StripEndOfPadded | rose_create.py:102 | text that ends in a non-space byte, followed by whitespace, strips back to that text |
| Header.ReadLine | rose_create.py:102 | `readline().rstrip()` yields a stripped line and moves the cursor at least past it, and forward whenever data remains |
| Header.ReadLineEnd | rose_create.py:102 | the cursor after `readline()` is exactly the end of the line: just past the first newline from the cursor, or the end of the data, with no newline skipped |
| Header.ReadLineIsPrefix | rose_create.py:102-103 | the stripped line is the data at the cursor, and only whitespace lies between its end and the next line |
| Header.ReadLineOfLine | rose_create.py:102 | a stripped line with no newline, followed by a newline, is read back unchanged, with the cursor just past the newline |
| Header.ParseInt | rose_create.py:109 | defines Python 2 `int()` on a byte string; Header.ParseIntLayout states that it accepts exactly the layout whitespace, optional sign, whitespace, digits, whitespace, so "8 9" is refused |
| Header.ParseIntLayout | rose_create.py:109 | `int()` accepts a string if and only if it is laid out as whitespace, an optional sign, whitespace (only after a sign), at least one digit, and whitespace; then it yields the digits' value, negated after a minus sign |
| Header.ParseIntAccepts | rose_create.py:109 | what `int()` accepts holds a digit and only whitespace, signs and digits; a negative result needs a minus sign |
| Header.ParseIntAt | rose_create.py:109 | whitespace, an optional sign, whitespace, digits, whitespace: `int()` gives the digits' value, negated after a minus sign |
| Header.DigitsValueOfDecimal | rose_create.py:109 | the decimal digits of n spell n |
| Header.ParseIntOfDecimal | rose_create.py:109 | `int()` reads back any integer written in decimal, negative ones included |
| Header.Utf8Unit | rose_create.py:115 | the length of the UTF-8 sequence Python 2.7 accepts at the start of the text, 0 when it accepts none; never more than 4 bytes nor more than remain |
| Header.Utf8UnitIsEncoding | rose_create.py:115 | every sequence the decoder accepts is the UTF-8 form of one code point below 0x110000, surrogates included; so stray continuation bytes, the leads C0, C1 and F5-FF, overlong forms and code points above 10FFFF are refused |
| Header.Utf8Valid | rose_create.py:115 | defines `decode('utf-8')` succeeding: the text splits into accepted sequences; Header.Utf8ValidOfEncoding and Header.Utf8ValidIsEncoding make that exactly the UTF-8 forms of code points |
| Header.Utf8UnitOfEncoding | rose_create.py:115 | the decoder accepts the UTF-8 form of any code point as one sequence, whatever follows |
| Header.Utf8ValidOfEncoding | rose_create.py:115 | every sequence of code points encodes to text that `decode('utf-8')` accepts |
| Header.Utf8ValidIsEncoding | rose_create.py:115 | text the decoder accepts is the UTF-8 form of the code points it decodes to; with Utf8ValidOfEncoding, `decode('utf-8')` succeeds exactly on UTF-8 forms of code points |
| Header.Utf8ValidOfAscii | rose_create.py:115 | ASCII text is accepted by `decode('utf-8')` |
| Header.NulAt | rose_create.py:115 | the first NUL byte at or after i, or the end: no NUL lies before it |
| Header.BeforeNul | rose_create.py:115 | `split('\x00')[0]` is the longest NUL-free prefix: the result holds no NUL and is either everything or stops at a NUL |
| Header.DecodeVersion | rose_create.py:106-111 | a line not starting with 'v' is refused as an unrecognised version; a remainder `int()` rejects is refused as not an integer; an accepted version is at least 8 and the cursor moves forward; no other refusal |
| Header.VersionAccepted | rose_create.py:106-111 | an accepted version is `int()` of the line after its 'v', and the stage ends where the version line does |
| Header.VersionOfInteger | rose_create.py:106-111 | a version line that starts with 'v' and whose remainder `int()` reads as v is refused as too old exactly when v < 8, and is otherwise accepted as v with the cursor at the end of the line |
| Header.DecodeTitle | rose_create.py:113-115 | a given title option is the title, and then the line is never refused; otherwise the title is valid UTF-8 with no NUL; the only refusal is invalid UTF-8 |
| Header.TitleAccepted | rose_create.py:113-115 | with a title option the stage accepts the option as the title, with the cursor at the end of the metadata line; without one the line is accepted exactly when its text before the first NUL is valid UTF-8, and that text is the title, with the same cursor |
| Header.DecodeFlags | rose_create.py:117-126 | a line not starting with '@' is refused as an unrecognised timestamp; an accepted timestamp line is followed by a flags byte below 0x80, which is the byte just consumed; the other refusals are no flags byte and bit 0x80 set |
| Header.FlagsAccepted | rose_create.py:117-126 | after a timestamp line starting with '@', the flags byte is the byte just past that line: none left is a truncation, bit 0x80 set is an extended elevation, otherwise it is the flags and is consumed |
| Header.DecodeHeader | rose_create.py:100-126 | data not starting with the signature is not a Survex file; an accepted header ends just past its flags byte with version >= 8, flags < 0x80, and the title option or a valid NUL-free UTF-8 title |
| Header.DecodeFields | rose_create.py:106-126 | the three checks after the signature line, with the same guarantees on an accepted header |
| Header.HeaderFaults | rose_create.py:100-126 | the header fails only for its own checks' reasons, never for an item-stream fault |
| Header.HeaderRefusals | rose_create.py:102-119 | past the signature line, a second line without 'v' is refused as an unrecognised version and one whose remainder `int()` rejects as not an integer; once version and title pass, a fourth line without '@' is refused as an unrecognised timestamp |
| Header.HeaderFlagsByte | rose_create.py:100-126 | once the version, metadata and timestamp lines pass, the header is refused as truncated when no byte follows the timestamp line, as extended elevation when that byte has bit 0x80, and is otherwise accepted with that byte as flags and the cursor just past it |
| Header.DecodeVersionOfLine | rose_create.py:106-111 | a written version line that `int()` reads as v yields v, refused exactly when v < 8 |
| Header.DecodeTitleOfLine | rose_create.py:113-115 | a written metadata line yields the option, or the text before its first NUL, refused exactly when that text is not UTF-8 |
| Header.DecodeFlagsOfLine | rose_create.py:117-126 | after a written timestamp line, the outcome depends only on whether a flags byte follows and on its bit 0x80 |
| Header.DecodeOfStages | rose_create.py:100-126 | given the signature line and each stage's outcome, the header's outcome is the first refusal in the script's order, or the assembled header |
| Header.WrittenLines | rose_create.py:102-118 | the signature, a version written as 'v' plus `%d`, and a timestamp line survive `readline().rstrip()`, and the version line reads back as v |
| Header.DecodeOfPlainLines | rose_create.py:100-126 | over four lines the reader gets back unchanged, only the version check, the title check and the flags byte decide the outcome |
| Header.DecodeOfLines | rose_create.py:100-126 | decoding a header as a writer lays it out gives the version, the title and the flags byte written, or the first refusal among version < 8, invalid UTF-8 title, missing flags byte and extended elevation |
| Header.DecodeBody | rose_create.py:132-233 | the loop from the starting state yields a sector table of `ns` entries whose sums are twice `nhoriz` and twice `thoriz`; a loop fault is the body's fault |
| Header.DecodeFile | rose_create.py:100-233 | a file without the signature is refused; a refused header refuses the file with the header's fault; after an accepted header, a body fault refuses the file with that fault; an accepted file has version >= 8, flags < 0x80, and a rose that satisfies the bookkeeping invariant |
| Header.DecodeBodyOfRecords | rose_create.py:132-233 | records that apply cleanly from the starting state, then the end marker: the loop yields the rose those records accumulate |
| Header.FileFaultOfRecords | rose_create.py:132-240 | after an accepted header and records that apply cleanly, a failing pass refuses the whole file with its fault, and no rose is drawn |
| Header.FileOfRecords | rose_create.py:100-233 | an accepted header, then records read by the table that apply cleanly, then the end marker: the file yields that header and the rose the records accumulate |

## Left out

- Option parsing (rose_create.py:78-96): `inkex` and `sys.argv` are host calls. The
  sector count and the `--title` option are parameters (`Config.ns`, `titleOption`).
  `bw` only affects rendering.
- SVG output (rose_create.py:242 onwards): formatting only.
- `fancyround` and `fancyfloor` (rose_create.py:34-50): floating-point
  `log10`/`pow`. They are used only for drawing.
- The exception handler (rose_create.py:237-240): it prints the message and exits.
  The model returns the `Fault` instead. Exceptions that are not `IOError`
  (`struct.error`, `TypeError`, `ValueError`, `UnicodeDecodeError`, `NameError`)
  escape that handler in the script. They are faults of the same `Result` here.
- File handles: the file is a byte sequence with a cursor, and `with open(...)` is
  not modelled.
- Legs.AddLeg: `sqrt` and `atan2` (rose_create.py:197-199, 220) are the abstract
  functions of `Geometry`. The slant length, the horizontal length and the bearing
  are therefore arbitrary reals of the deltas. The 0.01 scaling of the deltas is
  inside those functions.
- Legs.Horizontal: `lhoriz > 0.0` is stated as the integer test "east or north
  delta nonzero". This is what the floating-point test gives for 32-bit deltas, but
  the equivalence is not proved over IEEE doubles.
- Legs.Balanced: the accumulators and the angle arithmetic (`bearing + 180`, the
  normalisation loops, the sums `thoriz` and `tsector`) are exact reals here, while
  the script uses doubles. The real-valued half of the invariant,
  `sum(tsector) == 2 * thoriz`, therefore holds exactly only in the model; in the
  script it holds up to rounding.
- Legs.RoundHalfAway: exact over the reals. The double rounding of `ns * ang / 360`
  is not modelled.
- Legs.NorthLegSectors: the bearing 0 of a due-north leg is a hypothesis of the
  lemma. `atan2(0, dy)` is 0 for dy > 0, but `Geometry` leaves the bearing abstract.
- Header.DecodeTitle: the title stays bytes that are known to be valid UTF-8. It is
  not converted to code points.
- Records.ParseEncode: the round trip is stated one record at a time. A whole list
  of encoded records read back is not stated. Streams.DecodeParsed covers records
  read in a row from any bytes.
- Header.FileOfRecords: it takes an accepted header as a hypothesis. Header.DecodeOfLines
  gives that hypothesis for a written header, so the two lemmas together cover a
  whole written file.
- Decoder.StepMatchesReference: a LINE with no earlier position that is also cut
  short is a `NameError` for the script (it reads `xyz` before the position bytes).
  The table reports it as truncated. The two are stated to differ only there.

=== FILE: bytes.dfy ===
/** Octets and the fixed-width little-endian integers of the .3d format
    (the `struct.unpack` formats '<B', '<H', '<I' and '<i'). */
module Bytes {

  /** One octet of the file, as Python's `ord()` of a one-byte string. */
  type byte = b: int | 0 <= b < 0x100

  const TwoTo31: nat := 0x8000_0000
  const TwoTo32: nat := 0x1_0000_0000

  /** b shifted right by k bit positions, k within one octet. Each divisor
      is a literal, which keeps the arithmetic linear. */
  function ShiftRight(b: byte, k: nat): (r: byte)
    requires k < 8
    ensures r <= b
  {
    if k == 0 then b else if k == 1 then b / 2 else if k == 2 then b / 4
    else if k == 3 then b / 8 else if k == 4 then b / 16 else if k == 5 then b / 32
    else if k == 6 then b / 64 else b / 128
  }

  /** Whether bit k (of value 2^k) is set in b: Python's `b & 2**k != 0`. */
  predicate Bit(b: byte, k: nat)
    requires k < 8
  {
    ShiftRight(b, k) % 2 == 1
  }

  /** 256^n, the number of distinct n-byte strings. */
  function Pow256(n: nat): (r: nat)
    ensures r > 0
  {
    if n == 0 then 1 else 256 * Pow256(n - 1)
  }

  lemma Pow256Four()
    ensures Pow256(4) == TwoTo32
  {
  }

  /** The little-endian unsigned value of s; it always fits in |s| bytes. */
  function Unsigned(s: seq<byte>): (r: nat)
    ensures r < Pow256(|s|)
  {
    if |s| == 0 then 0
    else
      var rest := Unsigned(s[1..]);
      assert rest + 1 <= Pow256(|s| - 1);
      assert 256 * (rest + 1) <= 256 * Pow256(|s| - 1);
      s[0] + 256 * rest
  }

  /** The k-byte little-endian encoding of n; the inverse of Unsigned. */
  function LittleEndian(n: nat, k: nat): (s: seq<byte>)
    requires n < Pow256(k)
    ensures |s| == k
    ensures Unsigned(s) == n
  {
    if k == 0 then []
    else
      assert n / 256 < Pow256(k - 1) by {
        assert n < 256 * Pow256(k - 1);
      }
      var tail := LittleEndian(n / 256, k - 1);
      assert ([n % 256] + tail)[1..] == tail;
      [n % 256] + tail
  }

  /** Equal unsigned values of equal width are equal strings: no two
      encodings share a value. */
  lemma {:induction false} UnsignedInjective(s: seq<byte>, t: seq<byte>)
    requires |s| == |t|
    requires Unsigned(s) == Unsigned(t)
    ensures s == t
  {
    if |s| > 0 {
      assert s[0] == Unsigned(s) % 256 && t[0] == Unsigned(t) % 256;
      assert Unsigned(s[1..]) == Unsigned(s) / 256 && Unsigned(t[1..]) == Unsigned(t) / 256;
      UnsignedInjective(s[1..], t[1..]);
      assert s == [s[0]] + s[1..] && t == [t[0]] + t[1..];
    }
  }

  /** Two's-complement value of four little-endian bytes ('<i'). */
  function Signed32(s: seq<byte>): (r: int)
    requires |s| == 4
    ensures -(TwoTo31 as int) <= r < TwoTo31
  {
    Pow256Four();
    var u := Unsigned(s);
    if u < TwoTo31 then u else u - TwoTo32
  }

  predicate IsInt32(v: int) {
    -(TwoTo31 as int) <= v < TwoTo31
  }

  /** The four bytes '<i' packs v into. */
  function Signed32Bytes(v: int): (s: seq<byte>)
    requires IsInt32(v)
    ensures |s| == 4
    ensures Signed32(s) == v
  {
    Pow256Four();
    LittleEndian(if v >= 0 then v else v + TwoTo32, 4)
  }

  /** A window of a sequence that equals e has e's sub-windows at the
      matching offsets. */
  lemma SliceOfSlice(data: seq<byte>, pos: nat, e: seq<byte>, i: nat, j: nat)
    requires pos + |e| <= |data| && data[pos..pos + |e|] == e
    requires i <= j <= |e|
    ensures data[pos + i..pos + j] == e[i..j]
  {
    forall k | 0 <= k < j - i
      ensures data[pos + i..pos + j][k] == e[i..j][k]
    {
      assert data[pos + i + k] == data[pos..pos + |e|][i + k];
    }
  }

  /** Every byte is below 0x80, so Python's `decode('ascii')` accepts it. */
  predicate AllAscii(s: seq<byte>) {
    forall i | 0 <= i < |s| :: s[i] < 0x80
  }
}

=== FILE: decoder.dfy ===
/** The item-stream loop of rose_create.py (lines 132-233): one opcode byte
    at a time, in the script's own order of range tests, until a STYLE 0x00
    arrives while the current style is already 0x00.

    `Step` follows the script's chain of tests; `Reference` reads the same
    record through the opcode table of the Records module and applies its
    effect with `Apply`. `StepMatchesReference` shows that the two agree. */
module Decoder {
  import opened Bytes
  import opened Results
  import opened Primitives
  import opened Legs
  import opened Records

  /** The command-line choices the loop depends on: the sector count `ns`
      and the floating-point geometry. */
  datatype Config = Config(ns: int, geo: Geometry)

  /** `current_style`, the last position read by MOVE or LINE (`xyz`, unset
      before the first), and the accumulators. */
  datatype State = State(style: byte, at: Option<Point>, rose: Rose)

  /** The state before the first record: style 0xff, no position yet, and
      empty accumulators. */
  function Initial(ns: int): (s: State)
    ensures Shaped(s.rose, ns) && Balanced(s.rose)
    ensures s.style == 0xff && s.at.None?
  {
    State(0xff, None, EmptyRose(ns))
  }

  /** Nothing is counted before the first record: every total is zero and
      so is every sector. */
  lemma InitialIsEmpty(ns: int)
    ensures Initial(ns).rose.totals == NoLegs
    ensures forall i | 0 <= i < SectorCount(ns) :: Initial(ns).rose.nsector[i] == 0 && Initial(ns).rose.tsector[i] == 0.0
  {
  }

  /** The outcome of one record: keep reading at `next`, or stop there. */
  datatype Progress = Continue(state: State, next: nat) | Stop(state: State, next: nat)

  predicate IsLine(op: byte) {
    0x40 <= op <= 0x7f
  }

  /** The opcodes after which `xyz` holds the position just read. */
  predicate SetsPosition(op: byte) {
    op == 0x0f || IsLine(op)
  }

  /** One pass of the `while True` loop at pos. */
  function Step(cfg: Config, st: State, data: seq<byte>, pos: nat): (r: Result<Progress>)
    requires Shaped(st.rose, cfg.ns)
    ensures pos >= |data| ==> r == Err(PrematureEnd)
    ensures r.Ok? ==> pos < r.value.next <= |data|
    ensures pos < |data| && data[pos] == 0 && st.style == 0 ==> r == Ok(Stop(st, pos + 1))
    ensures r.Ok? && r.value.Stop? ==> data[pos] == 0 && st.style == 0
    ensures r.Ok? ==>
              r.value.state.style == if data[pos] <= 0x05 then data[pos] else st.style
    ensures r.Ok? && SetsPosition(data[pos]) ==>
              var next := r.value.next;
              pos + 13 <= next && r.value.state.at == Some(PointBefore(data, next))
    ensures r.Ok? && !SetsPosition(data[pos]) ==> r.value.state.at == st.at
    ensures r.Ok? && !IsLine(data[pos]) ==> r.value.state.rose == st.rose
    ensures r.Ok? && IsLine(data[pos]) ==>
              LegCount(r.value.state.rose.totals) == LegCount(st.rose.totals) + 1
    ensures r.Ok? ==> Shaped(r.value.state.rose, cfg.ns)
    ensures r.Ok? && Balanced(st.rose) ==> Balanced(r.value.state.rose)
    ensures r.Err? && r.fault == NoPosition ==> IsLine(data[pos]) && st.at.None?
    ensures r.Err? && r.fault == NoSectors ==> IsLine(data[pos]) && cfg.ns <= 0
    ensures r.Err? ==> r.fault in {PrematureEnd, Truncated, LabelNotAscii, NoPosition, NoSectors}
  {
    if pos >= |data| then Err(PrematureEnd)
    else
      var b := data[pos];
      if b <= 0x05 then
        if b == 0x00 && st.style == 0x00 then Ok(Stop(st, pos + 1))
        else Ok(Continue(st.(style := b), pos + 1))
      else if b == 0x0f then
        var m :- ReadXyz(data, pos + 1);
        Ok(Continue(st.(at := Some(m.0)), m.1))
      else if IsLine(b) then StepLine(cfg, st, data, pos + 1, b - 0x40)
      else
        var next :- Discard(data, pos);
        Ok(Continue(st, next))
  }

  /** The records whose payload the script reads and throws away, in its
      order of range tests: the reserved codes, DATE, error information,
      XSECT and LABEL/NODE. */
  function Discard(data: seq<byte>, pos: nat): (r: Result<nat>)
    requires pos < |data| && data[pos] > 0x05 && !SetsPosition(data[pos])
    ensures r.Ok? ==> pos < r.value <= |data|
    ensures r.Err? ==> r.fault == Truncated || r.fault == LabelNotAscii
  {
    var b := data[pos];
    if b <= 0x0e then Ok(pos + 1)
    else if b == 0x10 then Ok(pos + 1)
    else if b == 0x11 then Skip(data, pos + 1, 2)
    else if b == 0x12 then Skip(data, pos + 1, 3)
    else if b == 0x13 then Skip(data, pos + 1, 4)
    else if b <= 0x1e then Ok(pos + 1)
    else if b == 0x1f then Skip(data, pos + 1, 20)
    else if b <= 0x2f then Ok(pos + 1)
    else if b <= 0x33 then
      var q :- LabelEnd(data, pos + 1);
      Skip(data, q, if Bit(b, 1) then 16 else 8)
    else if b <= 0x3f then Ok(pos + 1)
    else
      var q :- LabelEnd(data, pos + 1);
      var m :- ReadXyz(data, q);
      Ok(m.1)
  }

  /** A payload of n bytes that is unpacked and discarded. */
  function Skip(data: seq<byte>, pos: nat, n: nat): (r: Result<nat>)
    ensures r.Ok? <==> pos + n <= |data|
    ensures r.Ok? ==> r.value == pos + n
    ensures r.Err? ==> r.fault == Truncated
  {
    var d :- ReadExact(data, pos, n);
    Ok(d.1)
  }

  /** The LINE branch after its opcode, `flags` being `byte & 0x3f`: the
      label unless flag 0x20 is set, then `xyz_prev = xyz` (a NameError
      before any MOVE), then the new position and the leg. */
  function StepLine(cfg: Config, st: State, data: seq<byte>, pos: nat, flags: byte): (r: Result<Progress>)
    requires Shaped(st.rose, cfg.ns) && flags < 0x40
    ensures r.Ok? ==> r.value.Continue? && r.value.state.style == st.style
    ensures r.Ok? ==> pos + 12 <= r.value.next <= |data|
    ensures r.Ok? ==>
              r.value.state.at == Some(PointBefore(data, r.value.next))
    ensures r.Ok? ==>
              && st.at.Some?
              && AddLeg(st.rose, cfg.ns, cfg.geo, flags, st.at.value, r.value.state.at.value)
                 == Ok(r.value.state.rose)
    ensures r.Err? && r.fault == NoPosition ==> st.at.None?
    ensures r.Err? && r.fault == NoSectors ==> cfg.ns <= 0
    ensures r.Err? ==> r.fault in {Truncated, LabelNotAscii, NoPosition, NoSectors}
  {
    var q :- if Bit(flags, 5) then Ok(pos) else LabelEnd(data, pos);
    if st.at.None? then Err(NoPosition)
    else
      var m :- ReadXyz(data, q);
      var rose :- AddLeg(st.rose, cfg.ns, cfg.geo, flags, st.at.value, m.0);
      Ok(Continue(st.(at := Some(m.0), rose := rose), m.1))
  }

  /** Where a label field read at pos ends. */
  function LabelEnd(data: seq<byte>, pos: nat): (r: Result<nat>)
    ensures r.Ok? <==> ReadLabel(data, pos).Ok?
    ensures r.Ok? ==> r.value == ReadLabel(data, pos).value.1
    ensures r.Err? ==> r.fault == ReadLabel(data, pos).fault
  {
    var l :- ReadLabel(data, pos);
    Ok(l.1)
  }

  /** The `while True` loop from pos to the end marker: the state and the
      position just past the marker. */
  function DecodeRecords(cfg: Config, st: State, data: seq<byte>, pos: nat): (r: Result<(State, nat)>)
    requires Shaped(st.rose, cfg.ns)
    ensures pos >= |data| ==> r == Err(PrematureEnd)
    ensures r.Ok? ==> pos < r.value.1 <= |data| && data[r.value.1 - 1] == 0 && r.value.0.style == 0
    ensures r.Ok? ==> Shaped(r.value.0.rose, cfg.ns)
    ensures r.Ok? && Balanced(st.rose) ==> Balanced(r.value.0.rose)
    ensures r.Ok? ==> LegCount(r.value.0.rose.totals) >= LegCount(st.rose.totals)
    ensures r.Err? ==> r.fault in {PrematureEnd, Truncated, LabelNotAscii, NoPosition, NoSectors}
    decreases |data| - pos
  {
    var p :- Step(cfg, st, data, pos);
    match p
    case Stop(s, next) =>
      assert next == pos + 1 && data[pos] == 0;
      Ok((s, next))
    case Continue(s, next) => DecodeRecords(cfg, s, data, next)
  }

  /** Whether reading rec in state st ends the data: STYLE 0x00 while the
      current style is already 0x00. */
  predicate Ends(st: State, rec: Record) {
    rec == Style(0) && st.style == 0
  }

  /** What one parsed record does to the state. Only STYLE, MOVE and LINE
      change anything. */
  function Apply(cfg: Config, st: State, rec: Record): (r: Result<State>)
    requires Shaped(st.rose, cfg.ns) && WellFormed(rec)
    ensures r.Err? <==> rec.Line? && (st.at.None? || (Binned(rec.op - 0x40, st.at.value, rec.to) && cfg.ns <= 0))
    ensures r.Err? ==> r.fault == if st.at.None? then NoPosition else NoSectors
    ensures r.Ok? ==> r.value.style == if rec.Style? then rec.code else st.style
    ensures r.Ok? ==> r.value.at == if rec.Move? || rec.Line? then Some(rec.to) else st.at
    ensures r.Ok? && !rec.Line? ==> r.value.rose == st.rose
    ensures r.Ok? && rec.Line? ==>
              st.at.Some? && AddLeg(st.rose, cfg.ns, cfg.geo, rec.op - 0x40, st.at.value, rec.to) == Ok(r.value.rose)
    ensures r.Ok? && rec.Line? ==> LegCount(r.value.rose.totals) == LegCount(st.rose.totals) + 1
    ensures r.Ok? ==> Shaped(r.value.rose, cfg.ns)
    ensures r.Ok? && Balanced(st.rose) ==> Balanced(r.value.rose)
  {
    match rec
    case Style(c) => Ok(st.(style := c))
    case Move(p) => Ok(st.(at := Some(p)))
    case Line(op, _, p) =>
      if st.at.None? then Err(NoPosition)
      else
        var rose :- AddLeg(st.rose, cfg.ns, cfg.geo, op - 0x40, st.at.value, p);
        Ok(st.(at := Some(p), rose := rose))
    case _ => Ok(st)
  }

  /** One pass of the loop read through the opcode table: parse a record,
      then stop or apply it. */
  function Reference(cfg: Config, st: State, data: seq<byte>, pos: nat): (r: Result<Progress>)
    requires Shaped(st.rose, cfg.ns)
    ensures ParseRecord(data, pos).Err? ==> r == Err(ParseRecord(data, pos).fault)
    ensures r.Ok? ==> r.value.next == ParseRecord(data, pos).value.1
  {
    var parsed :- ParseRecord(data, pos);
    Advance(cfg, st, parsed.0, parsed.1)
  }

  function Advance(cfg: Config, st: State, rec: Record, next: nat): Result<Progress>
    requires Shaped(st.rose, cfg.ns) && WellFormed(rec)
  {
    if Ends(st, rec) then Ok(Stop(st, next))
    else
      var st' :- Apply(cfg, st, rec);
      Ok(Continue(st', next))
  }

  /** A record the table parses and applies without ending the loop is
      what the script's pass produces too. */
  lemma StepOfParsed(cfg: Config, st: State, data: seq<byte>, pos: nat, rec: Record, next: nat)
    requires Shaped(st.rose, cfg.ns) && WellFormed(rec)
    requires ParseRecord(data, pos) == Ok((rec, next))
    requires !Ends(st, rec) && Apply(cfg, st, rec).Ok?
    ensures Step(cfg, st, data, pos) == Ok(Continue(Apply(cfg, st, rec).value, next))
    ensures DecodeRecords(cfg, st, data, pos) == DecodeRecords(cfg, Apply(cfg, st, rec).value, data, next)
  {
    assert Reference(cfg, st, data, pos) == Ok(Continue(Apply(cfg, st, rec).value, next));
    StepMatchesReference(cfg, st, data, pos);
  }

  /** Two outcomes of one pass agree: both succeed with the same result, or
      both fail for the same cause, except that the first may report a
      missing position where the second reports a short field. */
  predicate Agree(s: Result<Progress>, t: Result<Progress>) {
    && (s.Ok? <==> t.Ok?)
    && (s.Ok? ==> s == t)
    && (s.Err? && t.Err? ==> s.fault == t.fault || (s.fault == NoPosition && t.fault == Truncated))
  }

  /** The script's chain of range tests and the opcode table agree on every
      input. The one difference in failures: a LINE before any MOVE whose
      position is cut short is a missing position for the script (it
      consults `xyz` before reading) and a short field for the table. */
  lemma StepMatchesReference(cfg: Config, st: State, data: seq<byte>, pos: nat)
    requires Shaped(st.rose, cfg.ns)
    ensures Agree(Step(cfg, st, data, pos), Reference(cfg, st, data, pos))
  {
    if pos < |data| {
      var b := data[pos];
      if b <= 0x05 {
        StyleMatches(cfg, st, data, pos);
      } else if b == 0x0f {
        MoveMatches(cfg, st, data, pos);
      } else if IsLine(b) {
        LineMatches(cfg, st, data, pos);
      } else {
        DiscardMatches(data, pos);
      }
    }
  }

  lemma StyleMatches(cfg: Config, st: State, data: seq<byte>, pos: nat)
    requires Shaped(st.rose, cfg.ns)
    requires pos < |data| && data[pos] <= 0x05
    ensures Agree(Step(cfg, st, data, pos), Reference(cfg, st, data, pos))
  {
    assert KindOf(data[pos]) == StyleKind;
  }

  lemma MoveMatches(cfg: Config, st: State, data: seq<byte>, pos: nat)
    requires Shaped(st.rose, cfg.ns)
    requires pos < |data| && data[pos] == 0x0f
    ensures Agree(Step(cfg, st, data, pos), Reference(cfg, st, data, pos))
  {
    assert KindOf(data[pos]) == MoveKind;
  }

  lemma LineMatches(cfg: Config, st: State, data: seq<byte>, pos: nat)
    requires Shaped(st.rose, cfg.ns)
    requires pos < |data| && IsLine(data[pos])
    ensures Agree(Step(cfg, st, data, pos), Reference(cfg, st, data, pos))
  {
    var b := data[pos];
    assert KindOf(b) == LineKind;
    LineAgrees(cfg, st, data, pos + 1, b);
    StepDispatchLine(cfg, st, data, pos);
    ReferenceDispatchLine(cfg, st, data, pos);
    AgreeOfEqual(Step(cfg, st, data, pos), Reference(cfg, st, data, pos),
                 StepLine(cfg, st, data, pos + 1, b - 0x40), LineReference(cfg, st, data, pos + 1, b));
  }

  lemma AgreeOfEqual(s: Result<Progress>, t: Result<Progress>, s': Result<Progress>, t': Result<Progress>)
    requires s == s' && t == t' && Agree(s', t')
    ensures Agree(s, t)
  {
  }

  lemma StepDispatchLine(cfg: Config, st: State, data: seq<byte>, pos: nat)
    requires Shaped(st.rose, cfg.ns)
    requires pos < |data| && IsLine(data[pos])
    ensures Step(cfg, st, data, pos) == StepLine(cfg, st, data, pos + 1, data[pos] - 0x40)
  {
  }

  lemma ReferenceDispatchLine(cfg: Config, st: State, data: seq<byte>, pos: nat)
    requires Shaped(st.rose, cfg.ns)
    requires pos < |data| && IsLine(data[pos])
    ensures Reference(cfg, st, data, pos) == LineReference(cfg, st, data, pos + 1, data[pos])
  {
    LineDispatch(data, pos, data[pos]);
  }

  function LineReference(cfg: Config, st: State, data: seq<byte>, pos: nat, op: byte): Result<Progress>
    requires Shaped(st.rose, cfg.ns) && KindOf(op) == LineKind
  {
    var parsed :- ParseLine(data, pos, op);
    Advance(cfg, st, parsed.0, parsed.1)
  }

  lemma LineAgrees(cfg: Config, st: State, data: seq<byte>, pos: nat, op: byte)
    requires Shaped(st.rose, cfg.ns) && KindOf(op) == LineKind
    ensures Agree(StepLine(cfg, st, data, pos, op - 0x40), LineReference(cfg, st, data, pos, op))
  {
    var s := StepLine(cfg, st, data, pos, op - 0x40);
    var t := LineReference(cfg, st, data, pos, op);
    LineFlagBits(op);
    var q := if Bit(op, 5) then Ok(pos) else LabelEnd(data, pos);
    if q.Err? {
      assert s == Err(q.fault);
      assert t == Err(q.fault);
    } else {
      var x := ReadXyz(data, q.value);
      if x.Err? {
        assert t == Err(Truncated);
      } else {
        var rec := Line(op, if Bit(op, 5) then None else Some(ReadLabel(data, pos).value.0), x.value.0);
        assert ParseLine(data, pos, op) == Ok((rec, x.value.1));
        assert t == Advance(cfg, st, rec, x.value.1);
        if st.at.None? {
          assert s == Err(NoPosition);
          assert t == Err(NoPosition);
        } else {
          var leg := AddLeg(st.rose, cfg.ns, cfg.geo, op - 0x40, st.at.value, x.value.0);
          if leg.Err? {
            assert s == Err(leg.fault);
            assert t == Err(leg.fault);
          } else {
            assert s == Ok(Continue(st.(at := Some(x.value.0), rose := leg.value), x.value.1));
          }
        }
      }
    }
  }

  /** For the records that change nothing, the script's reads end where
      the table's do and fail for the same reason. */
  lemma DiscardMatches(data: seq<byte>, pos: nat)
    requires pos < |data| && data[pos] > 0x05 && !SetsPosition(data[pos])
    ensures Discard(data, pos).Ok? <==> ParseRecord(data, pos).Ok?
    ensures Discard(data, pos).Ok? ==> Discard(data, pos).value == ParseRecord(data, pos).value.1
    ensures Discard(data, pos).Err? ==> Discard(data, pos).fault == ParseRecord(data, pos).fault
  {
    var b := data[pos];
    if 0x30 <= b <= 0x33 {
      XSectDispatch(data, pos, b);
    } else if 0x80 <= b {
      NodeDispatch(data, pos, b);
    }
  }

  /** The no-label flag 0x20 of a LINE opcode keeps its meaning once the
      0x40 is taken off, as `byte & 0x3f` does. */
  lemma LineFlagBits(op: byte)
    requires IsLine(op)
    ensures Bit(op - 0x40, 5) == Bit(op, 5)
  {
  }
}

=== FILE: header.dfy ===
/** The text header of a .3d file (rose_create.py:100-126) and the whole
    file: four lines read with `readline()` and stripped of trailing
    whitespace, one flags byte, and then the item stream.

    The script runs under Python 2, so each line is a byte string: `rstrip()`
    and `int()` see bytes, and only the title is decoded, as UTF-8. */
module Header {
  import opened Bytes
  import opened Results
  import opened Legs
  import opened Decoder
  import opened Records
  import opened Streams

  const Newline: byte := 0x0a
  const LetterV: byte := 0x76      // 'v'
  const AtSign: byte := 0x40       // '@'
  const Plus: byte := 0x2b
  const Minus: byte := 0x2d
  const Nul: byte := 0x00

  /** The file signature the first line must start with. */
  const Magic: seq<byte> :=
    [0x53, 0x75, 0x72, 0x76, 0x65, 0x78, 0x20, 0x33, 0x44, 0x20,    // "Survex 3D "
     0x49, 0x6d, 0x61, 0x67, 0x65, 0x20, 0x46, 0x69, 0x6c, 0x65]    // "Image File"

  /** The bytes Python 2's `str.isspace()` accepts: space, and tab through
      carriage return. */
  predicate IsSpace(b: byte) {
    b == 0x20 || 0x09 <= b <= 0x0d
  }

  predicate IsDigit(b: byte) {
    0x30 <= b <= 0x39
  }

  predicate AllDigits(d: seq<byte>) {
    forall i | 0 <= i < |d| :: IsDigit(d[i])
  }

  predicate AllSpace(s: seq<byte>) {
    forall i | 0 <= i < |s| :: IsSpace(s[i])
  }

  predicate StartsWith(s: seq<byte>, prefix: seq<byte>) {
    |prefix| <= |s| && s[..|prefix|] == prefix
  }

  // ---------------------------------------------------------------------
  // readline() and rstrip()

  /** Where `readline()` stops: just past the next newline, or at the end of
      the data when there is none. */
  function LineEnd(data: seq<byte>, pos: nat): (e: nat)
    requires pos <= |data|
    ensures pos <= e <= |data|
    ensures pos < |data| ==> pos < e
    ensures e == |data| || data[e - 1] == Newline
    decreases |data| - pos
  {
    if pos == |data| then pos
    else if data[pos] == Newline then pos + 1
    else LineEnd(data, pos + 1)
  }

  /** The newline `readline()` stops after is the first one: none comes
      before it. */
  lemma {:induction false} LineEndIsFirst(data: seq<byte>, pos: nat, i: nat)
    requires pos <= i && pos <= |data| && i < LineEnd(data, pos) - 1
    ensures data[i] != Newline
    decreases |data| - pos
  {
    if data[pos] != Newline && i > pos {
      LineEndIsFirst(data, pos + 1, i);
    }
  }

  /** A line that ends in a newline and holds no other is read up to and
      including that newline. */
  lemma {:induction false} LineEndOfLine(data: seq<byte>, pos: nat, line: seq<byte>)
    requires pos + |line| < |data|
    requires forall i | 0 <= i < |line| :: line[i] != Newline
    requires data[pos..pos + |line|] == line && data[pos + |line|] == Newline
    ensures LineEnd(data, pos) == pos + |line| + 1
    decreases |line|
  {
    if |line| > 0 {
      assert data[pos] == line[0];
      assert data[pos + 1..pos + 1 + |line[1..]|] == line[1..];
      LineEndOfLine(data, pos + 1, line[1..]);
    }
  }

  /** `rstrip()` of data[pos..e]: where the text ends once its trailing
      whitespace is dropped. */
  function StripEnd(data: seq<byte>, pos: nat, e: nat): (m: nat)
    requires pos <= e <= |data|
    ensures pos <= m <= e
    ensures m == pos || !IsSpace(data[m - 1])
    ensures AllSpace(data[m..e])
    decreases e
  {
    if e == pos || !IsSpace(data[e - 1]) then e
    else
      var m := StripEnd(data, pos, e - 1);
      assert data[m..e] == data[m..e - 1] + [data[e - 1]];
      m
  }

  /** Text that does not end in whitespace is left as it was by `rstrip()`. */
  predicate Stripped(s: seq<byte>) {
    |s| == 0 || !IsSpace(s[|s| - 1])
  }

  /** `rstrip()` removes exactly the whitespace padding after stripped text. */
  lemma {:induction false} StripEndOfPadded(data: seq<byte>, pos: nat, m: nat, e: nat)
    requires pos <= m <= e <= |data|
    requires m == pos || !IsSpace(data[m - 1])
    requires AllSpace(data[m..e])
    ensures StripEnd(data, pos, e) == m
    decreases e
  {
    if m < e {
      assert IsSpace(data[m..e][e - 1 - m]);
      assert data[m..e - 1] == data[m..e][..e - 1 - m];
      StripEndOfPadded(data, pos, m, e - 1);
    }
  }

  /** `fp.readline().rstrip()` at pos, with the position after the line. */
  function ReadLine(data: seq<byte>, pos: nat): (r: (seq<byte>, nat))
    requires pos <= |data|
    ensures pos <= r.1 <= |data| && (pos < |data| ==> pos < r.1)
    ensures pos + |r.0| <= r.1 && Stripped(r.0)
  {
    var e := LineEnd(data, pos);
    (data[pos..StripEnd(data, pos, e)], e)
  }

  /** `readline()` leaves the cursor just past the first newline, or at
      the end of the data: never further. */
  lemma ReadLineEnd(data: seq<byte>, pos: nat)
    requires pos <= |data|
    ensures ReadLine(data, pos).1 == LineEnd(data, pos)
    ensures forall i | pos <= i < ReadLine(data, pos).1 - 1 :: data[i] != Newline
    ensures ReadLine(data, pos).1 < |data| ==> data[ReadLine(data, pos).1 - 1] == Newline
  {
    forall i | pos <= i < ReadLine(data, pos).1 - 1 ensures data[i] != Newline {
      LineEndIsFirst(data, pos, i);
    }
  }

  /** What `readline()` returns is the data from pos on, up to the next
      newline, less trailing whitespace. */
  lemma ReadLineIsPrefix(data: seq<byte>, pos: nat)
    requires pos <= |data|
    ensures data[pos..pos + |ReadLine(data, pos).0|] == ReadLine(data, pos).0
    ensures AllSpace(data[pos + |ReadLine(data, pos).0|..ReadLine(data, pos).1])
  {
    var e := LineEnd(data, pos);
    var m := StripEnd(data, pos, e);
    assert pos + |ReadLine(data, pos).0| == m;
  }

  /** A stripped line followed by a newline is read back whole. */
  lemma ReadLineOfLine(data: seq<byte>, pos: nat, line: seq<byte>)
    requires Stripped(line) && forall i | 0 <= i < |line| :: line[i] != Newline
    requires pos + |line| < |data|
    requires data[pos..pos + |line| + 1] == line + [Newline]
    ensures ReadLine(data, pos) == (line, pos + |line| + 1)
  {
    assert data[pos..pos + |line|] == (line + [Newline])[..|line|] == line;
    assert data[pos + |line|] == (line + [Newline])[|line|];
    LineEndOfLine(data, pos, line);
    if |line| > 0 {
      assert data[pos + |line| - 1] == line[|line| - 1];
    }
    assert data[pos + |line|..pos + |line| + 1] == [Newline];
    StripEndOfPadded(data, pos, pos + |line|, pos + |line| + 1);
  }

  // ---------------------------------------------------------------------
  // int()

  /** The first index at or after i that is not whitespace. */
  function SkipSpace(s: seq<byte>, i: nat): (j: nat)
    requires i <= |s|
    ensures i <= j <= |s| && (j == |s| || !IsSpace(s[j]))
    ensures AllSpace(s[i..j])
    decreases |s| - i
  {
    if i == |s| || !IsSpace(s[i]) then i else SkipSpace(s, i + 1)
  }

  /** The first index at or after i that is not a decimal digit. */
  function SkipDigits(s: seq<byte>, i: nat): (j: nat)
    requires i <= |s|
    ensures i <= j <= |s| && (j == |s| || !IsDigit(s[j]))
    ensures AllDigits(s[i..j])
    decreases |s| - i
  {
    if i == |s| || !IsDigit(s[i]) then i else SkipDigits(s, i + 1)
  }

  /** The number a run of decimal digits spells, most significant first. */
  function DigitsValue(d: seq<byte>): nat
    requires AllDigits(d)
  {
    if |d| == 0 then 0
    else
      var last := d[|d| - 1];
      assert IsDigit(last);
      DigitsValue(d[..|d| - 1]) * 10 + (last - 0x30)
  }

  /** Python 2's `int()` of a byte string in base 10: optional whitespace, an
      optional sign, optional whitespace, at least one digit, optional
      whitespace, and nothing else. Leading zeros are allowed and the value
      is unbounded (a long). */
  function ParseInt(s: seq<byte>): (r: Option<int>)
  {
    var a := SkipSpace(s, 0);
    var signed := a < |s| && (s[a] == Plus || s[a] == Minus);
    var b := SkipSpace(s, if signed then a + 1 else a);
    var c := SkipDigits(s, b);
    if c == b || SkipSpace(s, c) != |s| then None
    else
      assert IsDigit(s[b]);
      var v := DigitsValue(s[b..c]);
      Some(if signed && s[a] == Minus then -(v as int) else v)
  }

  /** Conversely, `int()` accepts only whitespace, signs and digits, with
      at least one digit, and a negative result needs a minus sign. */
  lemma ParseIntAccepts(s: seq<byte>)
    requires ParseInt(s).Some?
    ensures exists i | 0 <= i < |s| :: IsDigit(s[i])
    ensures forall i | 0 <= i < |s| :: IsSpace(s[i]) || IsDigit(s[i]) || s[i] == Plus || s[i] == Minus
    ensures ParseInt(s).value < 0 ==> Minus in s
  {
    var a := SkipSpace(s, 0);
    var signed := a < |s| && (s[a] == Plus || s[a] == Minus);
    var b := SkipSpace(s, if signed then a + 1 else a);
    var c := SkipDigits(s, b);
    var d := SkipSpace(s, c);
    assert IsDigit(s[b]);
    forall i | 0 <= i < |s|
      ensures IsSpace(s[i]) || IsDigit(s[i]) || s[i] == Plus || s[i] == Minus
    {
      if i < a {
        assert s[0..a][i] == s[i];
      } else if i == a && signed {
      } else if i < b {
        var b0 := if signed then a + 1 else a;
        assert s[b0..b][i - b0] == s[i];
      } else if i < c {
        assert s[b..c][i - b] == s[i];
      } else {
        assert s[c..d][i - c] == s[i];
      }
    }
    if ParseInt(s).value < 0 {
      assert s[a] == Minus;
    }
  }

  /** SkipSpace stops at the first byte that is not whitespace. */
  lemma {:induction false} SkipSpaceTo(s: seq<byte>, i: nat, j: nat)
    requires i <= j <= |s| && (j == |s| || !IsSpace(s[j]))
    requires forall k | i <= k < j :: IsSpace(s[k])
    ensures SkipSpace(s, i) == j
    decreases j - i
  {
    if i < j {
      assert IsSpace(s[i]);
      SkipSpaceTo(s, i + 1, j);
    }
  }

  /** SkipDigits stops at the first byte that is not a digit. */
  lemma {:induction false} SkipDigitsTo(s: seq<byte>, i: nat, j: nat)
    requires i <= j <= |s| && (j == |s| || !IsDigit(s[j]))
    requires forall k | i <= k < j :: IsDigit(s[k])
    ensures SkipDigits(s, i) == j
    decreases j - i
  {
    if i < j {
      assert IsDigit(s[i]);
      SkipDigitsTo(s, i + 1, j);
    }
  }

  /** `int()` on text laid out by positions: whitespace before a, an
      optional sign byte from a to b, whitespace from b to c (none without a
      sign), digits from c to d, and whitespace after d. The value is the
      digits' number, negated after a minus sign. */
  lemma ParseIntAt(s: seq<byte>, a: nat, b: nat, c: nat, d: nat)
    requires a <= b <= c < d <= |s|
    requires forall k | 0 <= k < a :: IsSpace(s[k])
    requires b == a || (b == a + 1 && (s[a] == Plus || s[a] == Minus))
    requires b == a ==> c == a
    requires forall k | b <= k < c :: IsSpace(s[k])
    requires forall k | c <= k < d :: IsDigit(s[k])
    requires forall k | d <= k < |s| :: IsSpace(s[k])
    ensures ParseInt(s) == Some(if b == a + 1 && s[a] == Minus then -(DigitsValue(s[c..d]) as int)
                                else DigitsValue(s[c..d]))
  {
    SkipSpaceTo(s, 0, a);
    SkipSpaceTo(s, b, c);
    SkipDigitsTo(s, c, d);
    SkipSpaceTo(s, d, |s|);
  }

  /** The layout of ParseIntAt as one predicate: whitespace before a, an
      optional sign from a to b, whitespace from b to c (none without a
      sign), digits from c to d, whitespace after d. */
  predicate IntLayout(s: seq<byte>, a: nat, b: nat, c: nat, d: nat) {
    && a <= b <= c < d <= |s|
    && (forall k | 0 <= k < a :: IsSpace(s[k]))
    && (b == a || (b == a + 1 && (s[a] == Plus || s[a] == Minus)))
    && (b == a ==> c == a)
    && (forall k | b <= k < c :: IsSpace(s[k]))
    && (forall k | c <= k < d :: IsDigit(s[k]))
    && (forall k | d <= k < |s| :: IsSpace(s[k]))
  }

  /** The integer such a layout spells. */
  function LayoutValue(s: seq<byte>, a: nat, b: nat, c: nat, d: nat): int
    requires IntLayout(s, a, b, c, d)
  {
    if b == a + 1 && s[a] == Minus then -(DigitsValue(s[c..d]) as int) else DigitsValue(s[c..d])
  }

  /** `int()` accepts a string exactly when it has that layout, and then
      yields the integer the layout spells: "8 9", say, is refused. */
  lemma ParseIntLayout(s: seq<byte>)
    ensures ParseInt(s).Some? <==> exists a, b, c, d :: IntLayout(s, a, b, c, d)
    ensures forall a, b, c, d | IntLayout(s, a, b, c, d) :: ParseInt(s) == Some(LayoutValue(s, a, b, c, d))
  {
    forall a, b, c, d | IntLayout(s, a, b, c, d)
      ensures ParseInt(s) == Some(LayoutValue(s, a, b, c, d))
    {
      ParseIntAt(s, a, b, c, d);
    }
    if ParseInt(s).Some? {
      var a, b, c, d := LayoutOfParse(s);
    }
  }

  /** The positions ParseInt finds lay out the text it accepts. */
  lemma LayoutOfParse(s: seq<byte>) returns (a: nat, b: nat, c: nat, d: nat)
    requires ParseInt(s).Some?
    ensures IntLayout(s, a, b, c, d)
  {
    a := SkipSpace(s, 0);
    var signed := a < |s| && (s[a] == Plus || s[a] == Minus);
    b := if signed then a + 1 else a;
    c := SkipSpace(s, b);
    d := SkipDigits(s, c);
    assert SkipSpace(s, d) == |s|;
    SpaceOfSlice(s, 0, a);
    SpaceOfSlice(s, b, c);
    SpaceOfSlice(s, d, |s|);
    forall k | c <= k < d ensures IsDigit(s[k]) {
      assert s[c..d][k - c] == s[k];
    }
  }

  lemma SpaceOfSlice(s: seq<byte>, i: nat, j: nat)
    requires i <= j <= |s| && AllSpace(s[i..j])
    ensures forall k | i <= k < j :: IsSpace(s[k])
  {
    forall k | i <= k < j ensures IsSpace(s[k]) {
      assert s[i..j][k - i] == s[k];
    }
  }

  /** Decimal digits of n, without leading zeros. */
  function Decimal(n: nat): (d: seq<byte>)
    ensures |d| > 0 && AllDigits(d)
    ensures Stripped(d) && forall i | 0 <= i < |d| :: d[i] != Newline
  {
    if n < 10 then [0x30 + n] else Decimal(n / 10) + [0x30 + n % 10]
  }

  /** `%d` of any integer: a minus sign for negatives, then the digits. */
  function VersionText(v: int): seq<byte> {
    if v < 0 then [Minus] + Decimal(-v) else Decimal(v)
  }

  /** The digits of n spell n back. */
  lemma {:induction false} DigitsValueOfDecimal(n: nat)
    ensures DigitsValue(Decimal(n)) == n
  {
    if n >= 10 {
      var d := Decimal(n);
      assert d[..|d| - 1] == Decimal(n / 10);
      DigitsValueOfDecimal(n / 10);
    }
  }

  /** `int()` reads back what `%d` writes, for any integer. */
  lemma ParseIntOfDecimal(v: int)
    ensures ParseInt(VersionText(v)) == Some(v)
  {
    if v < 0 {
      NegativeDecimal(v);
    } else {
      NaturalDecimal(v);
    }
  }

  lemma NegativeDecimal(v: int)
    requires v < 0
    ensures ParseInt(VersionText(v)) == Some(v)
  {
    var d := Decimal(-v);
    var s := [Minus] + d;
    assert s[1..|s|] == d;
    forall k | 1 <= k < |s| ensures IsDigit(s[k]) {
      assert s[k] == d[k - 1];
    }
    ParseIntAt(s, 0, 1, 1, |s|);
    DigitsValueOfDecimal(-v);
  }

  lemma NaturalDecimal(v: int)
    requires v >= 0
    ensures ParseInt(VersionText(v)) == Some(v)
  {
    var s := VersionText(v);
    ParseIntAt(s, 0, 0, 0, |s|);
    assert s[0..|s|] == s;
    DigitsValueOfDecimal(v);
  }

  // ---------------------------------------------------------------------
  // decode('utf-8')

  predicate IsCont(b: byte) {
    0x80 <= b < 0xc0
  }

  /** The length of the UTF-8 sequence that starts s, or 0 when Python 2.7's
      decoder rejects it there: overlong forms, code points above U+10FFFF,
      stray continuation bytes and cut-off sequences are rejected; encoded
      surrogates (ED A0..BF xx) are accepted, as that decoder does. */
  function Utf8Unit(s: seq<byte>): (n: nat)
    ensures n <= |s| && n <= 4
  {
    if |s| == 0 then 0
    else
      var b := s[0];
      if b < 0x80 then 1
      else if 0xc2 <= b <= 0xdf then
        if |s| >= 2 && IsCont(s[1]) then 2 else 0
      else if 0xe0 <= b <= 0xef then
        if |s| >= 3 && IsCont(s[1]) && IsCont(s[2]) && (b != 0xe0 || s[1] >= 0xa0) then 3 else 0
      else if 0xf0 <= b <= 0xf4 then
        if |s| >= 4 && IsCont(s[1]) && IsCont(s[2]) && IsCont(s[3])
           && (b != 0xf0 || s[1] >= 0x90) && (b != 0xf4 || s[1] < 0x90) then 4 else 0
      else 0
  }

  /** `decode('utf-8')` succeeds: the bytes split into accepted sequences. */
  predicate Utf8Valid(s: seq<byte>)
    decreases |s|
  {
    |s| == 0 || (Utf8Unit(s) > 0 && Utf8Valid(s[Utf8Unit(s)..]))
  }

  /** The UTF-8 form of one code point, surrogates included. */
  function EncodeCodePoint(c: nat): (s: seq<byte>)
    requires c < 0x11_0000
    ensures 1 <= |s| <= 4
  {
    if c < 0x80 then [c]
    else if c < 0x800 then [0xc0 + c / 0x40, 0x80 + c % 0x40]
    else if c < 0x1_0000 then [0xe0 + c / 0x1000, 0x80 + c / 0x40 % 0x40, 0x80 + c % 0x40]
    else [0xf0 + c / 0x4_0000, 0x80 + c / 0x1000 % 0x40, 0x80 + c / 0x40 % 0x40, 0x80 + c % 0x40]
  }

  /** The decoder accepts the encoding of any code point as one sequence,
      whatever follows it. */
  lemma Utf8UnitOfEncoding(c: nat, rest: seq<byte>)
    requires c < 0x11_0000
    ensures Utf8Unit(EncodeCodePoint(c) + rest) == |EncodeCodePoint(c)|
  {
    var e := EncodeCodePoint(c);
    var s := e + rest;
    assert s[0] == e[0];
    if |e| >= 2 { assert s[1] == e[1]; }
    if |e| >= 3 { assert s[2] == e[2]; }
    if |e| == 4 { assert s[3] == e[3]; }
  }

  /** Encodings of code points, one after another. */
  function EncodeAll(cs: seq<nat>): seq<byte>
    requires forall i | 0 <= i < |cs| :: cs[i] < 0x11_0000
  {
    if |cs| == 0 then [] else EncodeCodePoint(cs[0]) + EncodeAll(cs[1..])
  }

  /** Every sequence of code points encodes to text the decoder accepts. */
  lemma {:induction false} Utf8ValidOfEncoding(cs: seq<nat>)
    requires forall i | 0 <= i < |cs| :: cs[i] < 0x11_0000
    ensures Utf8Valid(EncodeAll(cs))
    decreases |cs|
  {
    if |cs| > 0 {
      var e := EncodeCodePoint(cs[0]);
      var rest := EncodeAll(cs[1..]);
      Utf8UnitOfEncoding(cs[0], rest);
      assert (e + rest)[|e|..] == rest;
      Utf8ValidOfEncoding(cs[1..]);
    }
  }

  /** The code point of the sequence Utf8Unit accepts at the start of s. */
  function UnitCodePoint(s: seq<byte>): (c: nat)
    requires Utf8Unit(s) > 0
  {
    if s[0] < 0x80 then s[0]
    else if s[0] < 0xe0 then (s[0] as int - 0xc0) * 0x40 + (s[1] as int - 0x80)
    else if s[0] < 0xf0 then (s[0] as int - 0xe0) * 0x1000 + (s[1] as int - 0x80) * 0x40 + (s[2] as int - 0x80)
    else (s[0] as int - 0xf0) * 0x4_0000 + (s[1] as int - 0x80) * 0x1000 + (s[2] as int - 0x80) * 0x40 + (s[3] as int - 0x80)
  }

  /** x split by a divisor of 64: quotient q and remainder r. */
  lemma DivMod64(x: int, q: int, r: int)
    requires 0 <= r < 0x40 && x == q * 0x40 + r
    ensures x / 0x40 == q && x % 0x40 == r
  {
  }

  /** What the decoder accepts is the UTF-8 form of a code point and
      nothing else: a stray continuation byte, the overlong leads C0 and
      C1, an overlong three- or four-byte form, a lead above F4 or a code
      point above 10FFFF is refused. */
  lemma Utf8UnitIsEncoding(s: seq<byte>)
    requires Utf8Unit(s) > 0
    ensures UnitCodePoint(s) < 0x11_0000
    ensures EncodeCodePoint(UnitCodePoint(s)) == s[..Utf8Unit(s)]
  {
    if s[0] < 0x80 {
      assert s[..1] == [s[0]];
    } else if s[0] < 0xe0 {
      TwoByteUnit(s);
    } else if s[0] < 0xf0 {
      ThreeByteUnit(s);
    } else {
      FourByteUnit(s);
    }
  }

  lemma TwoByteUnit(s: seq<byte>)
    requires 2 <= |s| && 0xc2 <= s[0] <= 0xdf && IsCont(s[1])
    ensures UnitCodePoint(s) < 0x800 && EncodeCodePoint(UnitCodePoint(s)) == s[..2]
  {
    var b0, b1 := s[0] as int - 0xc0, s[1] as int - 0x80;
    var c := b0 * 0x40 + b1;
    assert UnitCodePoint(s) == c;
    DivMod64(c, b0, b1);
    assert EncodeCodePoint(c) == [s[0], s[1]] == s[..2];
  }

  lemma ThreeByteUnit(s: seq<byte>)
    requires 3 <= |s| && 0xe0 <= s[0] <= 0xef && IsCont(s[1]) && IsCont(s[2]) && (s[0] != 0xe0 || s[1] >= 0xa0)
    ensures UnitCodePoint(s) < 0x1_0000 && EncodeCodePoint(UnitCodePoint(s)) == s[..3]
  {
    var b0, b1, b2 := s[0] as int - 0xe0, s[1] as int - 0x80, s[2] as int - 0x80;
    var c := b0 * 0x1000 + b1 * 0x40 + b2;
    assert UnitCodePoint(s) == c;
    DivMod64(c, b0 * 0x40 + b1, b2);
    DivMod64(b0 * 0x40 + b1, b0, b1);
    assert c / 0x1000 == b0;
    assert EncodeCodePoint(c) == [s[0], s[1], s[2]] == s[..3];
  }

  lemma FourByteUnit(s: seq<byte>)
    requires 4 <= |s| && 0xf0 <= s[0] <= 0xf4 && IsCont(s[1]) && IsCont(s[2]) && IsCont(s[3])
    requires (s[0] != 0xf0 || s[1] >= 0x90) && (s[0] != 0xf4 || s[1] < 0x90)
    ensures UnitCodePoint(s) < 0x11_0000 && EncodeCodePoint(UnitCodePoint(s)) == s[..4]
  {
    var b0, b1, b2, b3 := s[0] as int - 0xf0, s[1] as int - 0x80, s[2] as int - 0x80, s[3] as int - 0x80;
    var c := b0 * 0x4_0000 + b1 * 0x1000 + b2 * 0x40 + b3;
    assert UnitCodePoint(s) == c;
    DivMod64(c, b0 * 0x1000 + b1 * 0x40 + b2, b3);
    DivMod64(b0 * 0x1000 + b1 * 0x40 + b2, b0 * 0x40 + b1, b2);
    DivMod64(b0 * 0x40 + b1, b0, b1);
    assert c / 0x1000 == b0 * 0x40 + b1;
    assert c / 0x4_0000 == b0;
    assert EncodeCodePoint(c) == [s[0], s[1], s[2], s[3]] == s[..4];
  }

  /** The code points of text the decoder accepts. */
  function Utf8Decode(s: seq<byte>): (cs: seq<nat>)
    requires Utf8Valid(s)
    decreases |s|
  {
    if |s| == 0 then [] else [UnitCodePoint(s)] + Utf8Decode(s[Utf8Unit(s)..])
  }

  /** Text the decoder accepts is exactly the encoding of its code points:
      with Utf8ValidOfEncoding, `decode('utf-8')` succeeds on a byte string
      if and only if it is the UTF-8 form of some code points. */
  lemma {:induction false} Utf8ValidIsEncoding(s: seq<byte>)
    requires Utf8Valid(s)
    ensures forall i | 0 <= i < |Utf8Decode(s)| :: Utf8Decode(s)[i] < 0x11_0000
    ensures EncodeAll(Utf8Decode(s)) == s
    decreases |s|
  {
    if |s| > 0 {
      var n := Utf8Unit(s);
      var c, rest := UnitCodePoint(s), Utf8Decode(s[n..]);
      assert Utf8Decode(s) == [c] + rest;
      Utf8UnitIsEncoding(s);
      Utf8ValidIsEncoding(s[n..]);
      EncodeAllCons(c, rest);
      JoinAt(s, n, EncodeCodePoint(c), EncodeAll(rest));
    }
  }

  /** The two pieces of s cut at n join back into s. */
  lemma JoinAt(s: seq<byte>, n: nat, head: seq<byte>, tail: seq<byte>)
    requires n <= |s| && head == s[..n] && tail == s[n..]
    ensures head + tail == s
  {
  }

  lemma EncodeAllCons(c: nat, rest: seq<nat>)
    requires c < 0x11_0000 && forall i | 0 <= i < |rest| :: rest[i] < 0x11_0000
    ensures forall i | 0 <= i < |[c] + rest| :: ([c] + rest)[i] < 0x11_0000
    ensures EncodeAll([c] + rest) == EncodeCodePoint(c) + EncodeAll(rest)
  {
    assert ([c] + rest)[1..] == rest;
  }

  /** ASCII text is valid UTF-8. */
  lemma {:induction false} Utf8ValidOfAscii(s: seq<byte>)
    requires AllAscii(s)
    ensures Utf8Valid(s)
    decreases |s|
  {
    if |s| > 0 {
      Utf8ValidOfAscii(s[1..]);
    }
  }

  // ---------------------------------------------------------------------
  // The header

  /** The first NUL at or after i, or the end of s. */
  function NulAt(s: seq<byte>, i: nat): (j: nat)
    requires i <= |s|
    ensures i <= j <= |s| && (j == |s| || s[j] == Nul)
    ensures Nul !in s[i..j]
    decreases |s| - i
  {
    if i == |s| || s[i] == Nul then i else NulAt(s, i + 1)
  }

  /** `line.split('\x00')[0]`: the text before the first NUL byte. */
  function BeforeNul(s: seq<byte>): (r: seq<byte>)
    ensures Nul !in r
    ensures |r| <= |s| && (|r| == |s| || s[|r|] == Nul)
  {
    s[..NulAt(s, 0)]
  }

  /** What the header yields: the format version, the title the rose is
      drawn with, and the flags byte. */
  datatype Header = Header(version: int, title: seq<byte>, flags: byte)

  /** A prefix of a prefix of data is a prefix of data. */
  lemma StartsWithOfPrefix(data: seq<byte>, line: seq<byte>, prefix: seq<byte>)
    requires StartsWith(data, line) && StartsWith(line, prefix)
    ensures StartsWith(data, prefix)
  {
    assert data[..|prefix|] == data[..|line|][..|prefix|];
  }

  /** The version line: it must start with 'v', the rest must be an integer
      for `int()`, and that integer must be at least 8. */
  function DecodeVersion(data: seq<byte>, pos: nat): (r: Result<(int, nat)>)
    requires pos <= |data|
    ensures r.Ok? ==> r.value.0 >= 8 && pos < r.value.1 <= |data|
    ensures r.Err? ==> r.fault in {BadVersionMarker, VersionNotInteger, VersionTooOld}
    ensures !StartsWith(ReadLine(data, pos).0, [LetterV]) ==> r == Err(BadVersionMarker)
    ensures StartsWith(ReadLine(data, pos).0, [LetterV]) && ParseInt(ReadLine(data, pos).0[1..]).None? ==>
              r == Err(VersionNotInteger)
  {
    var (ver, next) := ReadLine(data, pos);
    if !StartsWith(ver, [LetterV]) then Err(BadVersionMarker)
    else match ParseInt(ver[1..])
      case None => Err(VersionNotInteger)
      case Some(v) => if v < 8 then Err(VersionTooOld) else Ok((v, next))
  }

  /** The metadata line: a non-empty `titleOption` (the `--title` option)
      is the title and the line is not decoded; otherwise the title is the
      line up to its first NUL, which must be valid UTF-8. */
  function DecodeTitle(data: seq<byte>, pos: nat, titleOption: seq<byte>): (r: Result<(seq<byte>, nat)>)
    requires pos <= |data|
    ensures r.Ok? ==> pos <= r.value.1 <= |data|
    ensures r.Ok? && |titleOption| > 0 ==> r.value.0 == titleOption
    ensures r.Ok? && |titleOption| == 0 ==> Utf8Valid(r.value.0) && Nul !in r.value.0
    ensures |titleOption| > 0 ==> r.Ok?
    ensures r.Err? ==> r.fault == TitleNotUtf8
  {
    var (meta, next) := ReadLine(data, pos);
    if |titleOption| > 0 then Ok((titleOption, next))
    else if Utf8Valid(BeforeNul(meta)) then Ok((BeforeNul(meta), next))
    else Err(TitleNotUtf8)
  }

  /** An accepted version is the integer `int()` reads after the 'v', and
      the stage ends where the version line does. */
  lemma VersionAccepted(data: seq<byte>, pos: nat)
    requires pos <= |data|
    ensures var r := DecodeVersion(data, pos);
            r.Ok? ==> ParseInt(ReadLine(data, pos).0[1..]) == Some(r.value.0) && r.value.1 == ReadLine(data, pos).1
  {
  }

  /** Conversely, a version line that starts with 'v' and reads as v under
      `int()` is refused exactly when v < 8, and is otherwise accepted with
      the cursor at the end of the line. */
  lemma VersionOfInteger(data: seq<byte>, pos: nat, v: int)
    requires pos <= |data|
    requires StartsWith(ReadLine(data, pos).0, [LetterV]) && ParseInt(ReadLine(data, pos).0[1..]) == Some(v)
    ensures DecodeVersion(data, pos) == if v < 8 then Err(VersionTooOld) else Ok((v, ReadLine(data, pos).1))
  {
  }

  /** With a title option the metadata line is skipped and the option is
      the title. Without one the line is accepted exactly when its text
      before the first NUL is valid UTF-8, and that text is the title.
      Either way the stage ends where the metadata line does. */
  lemma TitleAccepted(data: seq<byte>, pos: nat, titleOption: seq<byte>)
    requires pos <= |data|
    ensures |titleOption| > 0 ==> DecodeTitle(data, pos, titleOption) == Ok((titleOption, ReadLine(data, pos).1))
    ensures |titleOption| == 0 ==>
              (DecodeTitle(data, pos, titleOption).Ok? <==> Utf8Valid(BeforeNul(ReadLine(data, pos).0)))
    ensures |titleOption| == 0 && DecodeTitle(data, pos, titleOption).Ok? ==>
              DecodeTitle(data, pos, titleOption).value == (BeforeNul(ReadLine(data, pos).0), ReadLine(data, pos).1)
  {
  }

  /** The timestamp line, which must start with '@', and the flags byte,
      which must be present and must not have the extended-elevation bit
      0x80 set. */
  function DecodeFlags(data: seq<byte>, pos: nat): (r: Result<(byte, nat)>)
    requires pos <= |data|
    ensures r.Ok? ==> r.value.0 < 0x80 && pos < r.value.1 <= |data| && data[r.value.1 - 1] == r.value.0
    ensures r.Err? ==> r.fault in {BadTimestamp, Truncated, ExtendedElevation}
    ensures !StartsWith(ReadLine(data, pos).0, [AtSign]) ==> r == Err(BadTimestamp)
  {
    var (stamp, next) := ReadLine(data, pos);
    if !StartsWith(stamp, [AtSign]) then Err(BadTimestamp)
    else if next == |data| then Err(Truncated)
    else if data[next] >= 0x80 then Err(ExtendedElevation)
    else Ok((data[next], next + 1))
  }

  /** After a timestamp line that starts with '@', the flags byte is the
      byte just past that line: missing, it is a truncation; with bit 0x80
      set, an extended elevation; otherwise it is the flags, consumed. */
  lemma FlagsAccepted(data: seq<byte>, pos: nat)
    requires pos <= |data| && StartsWith(ReadLine(data, pos).0, [AtSign])
    ensures ReadLine(data, pos).1 == |data| ==> DecodeFlags(data, pos) == Err(Truncated)
    ensures ReadLine(data, pos).1 < |data| ==>
              DecodeFlags(data, pos) ==
                if data[ReadLine(data, pos).1] >= 0x80 then Err(ExtendedElevation)
                else Ok((data[ReadLine(data, pos).1], ReadLine(data, pos).1 + 1))
  {
  }

  /** The header checks in the order the script makes them, each failing
      with its own fault. */
  function DecodeHeader(data: seq<byte>, titleOption: seq<byte>): (r: Result<(Header, nat)>)
    ensures !StartsWith(data, Magic) ==> r == Err(NotSurvexFile)
    ensures r.Ok? ==> 0 < r.value.1 <= |data| && data[r.value.1 - 1] == r.value.0.flags
    ensures r.Ok? ==> r.value.0.version >= 8 && r.value.0.flags < 0x80
    ensures r.Ok? && |titleOption| > 0 ==> r.value.0.title == titleOption
    ensures r.Ok? && |titleOption| == 0 ==> Utf8Valid(r.value.0.title) && Nul !in r.value.0.title
  {
    var (sig, p1) := ReadLine(data, 0);
    if !StartsWith(sig, Magic) then Err(NotSurvexFile)
    else
      ReadLineIsPrefix(data, 0);
      StartsWithOfPrefix(data, sig, Magic);
      DecodeFields(data, p1, titleOption)
  }

  /** The version, metadata and timestamp lines and the flags byte, after
      the signature line. */
  function DecodeFields(data: seq<byte>, pos: nat, titleOption: seq<byte>): (r: Result<(Header, nat)>)
    requires pos <= |data|
    ensures r.Ok? ==> pos < r.value.1 <= |data| && data[r.value.1 - 1] == r.value.0.flags
    ensures r.Ok? ==> r.value.0.version >= 8 && r.value.0.flags < 0x80
    ensures r.Ok? && |titleOption| > 0 ==> r.value.0.title == titleOption
    ensures r.Ok? && |titleOption| == 0 ==> Utf8Valid(r.value.0.title) && Nul !in r.value.0.title
  {
    var version :- DecodeVersion(data, pos);
    var title :- DecodeTitle(data, version.1, titleOption);
    var flags :- DecodeFlags(data, title.1);
    Ok((Header(version.0, title.0, flags.0), flags.1))
  }

  /** The header fails only for the reasons its own checks give: never for
      a fault of the item stream. */
  lemma HeaderFaults(data: seq<byte>, titleOption: seq<byte>)
    ensures DecodeHeader(data, titleOption).Err? ==>
              DecodeHeader(data, titleOption).fault in
                {NotSurvexFile, BadVersionMarker, VersionNotInteger, VersionTooOld,
                 TitleNotUtf8, BadTimestamp, Truncated, ExtendedElevation}
  {
  }

  /** Past the signature line, the header refuses a second line that does
      not start with 'v' and a version that `int()` rejects; once the
      version and metadata lines pass, it refuses a fourth line that does
      not start with '@'. */
  lemma HeaderRefusals(data: seq<byte>, titleOption: seq<byte>)
    requires StartsWith(ReadLine(data, 0).0, Magic)
    ensures var l2 := ReadLine(data, ReadLine(data, 0).1).0;
            !StartsWith(l2, [LetterV]) ==> DecodeHeader(data, titleOption) == Err(BadVersionMarker)
    ensures var l2 := ReadLine(data, ReadLine(data, 0).1).0;
            StartsWith(l2, [LetterV]) && ParseInt(l2[1..]).None? ==>
              DecodeHeader(data, titleOption) == Err(VersionNotInteger)
    ensures var v := DecodeVersion(data, ReadLine(data, 0).1);
            v.Ok? && DecodeTitle(data, v.value.1, titleOption).Ok? &&
            !StartsWith(ReadLine(data, DecodeTitle(data, v.value.1, titleOption).value.1).0, [AtSign]) ==>
              DecodeHeader(data, titleOption) == Err(BadTimestamp)
  {
  }

  /** Once the version, metadata and timestamp lines pass, the header's
      outcome is decided by the byte just past the timestamp line: none is
      a truncation, bit 0x80 set is an extended elevation, and otherwise
      the header is accepted with that byte as its flags and the cursor
      just past it. */
  lemma HeaderFlagsByte(data: seq<byte>, titleOption: seq<byte>, v: int, p2: nat, title: seq<byte>, p3: nat)
    requires StartsWith(ReadLine(data, 0).0, Magic)
    requires DecodeVersion(data, ReadLine(data, 0).1) == Ok((v, p2))
    requires DecodeTitle(data, p2, titleOption) == Ok((title, p3))
    requires StartsWith(ReadLine(data, p3).0, [AtSign])
    ensures ReadLine(data, p3).1 == |data| ==> DecodeHeader(data, titleOption) == Err(Truncated)
    ensures ReadLine(data, p3).1 < |data| ==>
              DecodeHeader(data, titleOption) ==
                if data[ReadLine(data, p3).1] >= 0x80 then Err(ExtendedElevation)
                else Ok((Header(v, title, data[ReadLine(data, p3).1]), ReadLine(data, p3).1 + 1))
  {
    FlagsAccepted(data, p3);
  }

  /** The four header lines as a writer produces them: the signature line,
      the version, the metadata line (title, then optionally a NUL and more)
      and the timestamp line, each ending in a newline. */
  datatype HeaderText = HeaderText(version: int, meta: seq<byte>, stamp: seq<byte>)

  /** A line the reader gets back unchanged: no newline inside and no
      trailing whitespace. */
  predicate PlainLine(s: seq<byte>) {
    Stripped(s) && forall i | 0 <= i < |s| :: s[i] != Newline
  }

  predicate Writable(h: HeaderText) {
    PlainLine(h.meta) && PlainLine(h.stamp)
  }

  /** Four lines, each followed by a newline. */
  function Lines(l1: seq<byte>, l2: seq<byte>, l3: seq<byte>, l4: seq<byte>): seq<byte> {
    (l1 + [Newline]) + (l2 + [Newline]) + (l3 + [Newline]) + (l4 + [Newline])
  }

  function EncodeLines(h: HeaderText): seq<byte> {
    Lines(Magic, [LetterV] + VersionText(h.version), h.meta, [AtSign] + h.stamp)
  }

  /** The title the reader settles on for a metadata line. */
  function TitleOf(meta: seq<byte>, titleOption: seq<byte>): seq<byte> {
    if |titleOption| > 0 then titleOption else BeforeNul(meta)
  }

  /** The outcome of the version stage for a written version v. */
  function VersionAt(v: int, next: nat): Result<(int, nat)> {
    if v < 8 then Err(VersionTooOld) else Ok((v, next))
  }

  /** The outcome of the title stage for a written metadata line. */
  function TitleAt(meta: seq<byte>, titleOption: seq<byte>, next: nat): Result<(seq<byte>, nat)> {
    if |titleOption| == 0 && !Utf8Valid(BeforeNul(meta)) then Err(TitleNotUtf8)
    else Ok((TitleOf(meta, titleOption), next))
  }

  /** The outcome of the flags stage when the flags byte is due at n. */
  function FlagsAt(data: seq<byte>, n: nat): Result<(byte, nat)> {
    if n >= |data| then Err(Truncated)
    else if data[n] >= 0x80 then Err(ExtendedElevation)
    else Ok((data[n], n + 1))
  }

  /** The outcome of the whole header once the stages are known. */
  function HeaderAt(v: int, meta: seq<byte>, titleOption: seq<byte>, data: seq<byte>, n: nat): Result<(Header, nat)> {
    if v < 8 then Err(VersionTooOld)
    else if |titleOption| == 0 && !Utf8Valid(BeforeNul(meta)) then Err(TitleNotUtf8)
    else if n >= |data| then Err(Truncated)
    else if data[n] >= 0x80 then Err(ExtendedElevation)
    else Ok((Header(v, TitleOf(meta, titleOption), data[n]), n + 1))
  }

  /** A version line the reader reads as v yields v, refused below 8. */
  lemma DecodeVersionOfLine(data: seq<byte>, pos: nat, line: seq<byte>, v: int, next: nat)
    requires PlainLine(line) && StartsWith(line, [LetterV]) && ParseInt(line[1..]) == Some(v)
    requires next == pos + |line| + 1 && next <= |data| && data[pos..next] == line + [Newline]
    ensures DecodeVersion(data, pos) == VersionAt(v, next)
  {
    ReadLineOfLine(data, pos, line);
  }

  /** A written metadata line gives the title: the option when one is
      given, else the text before the first NUL, refused when it is not
      UTF-8. */
  lemma DecodeTitleOfLine(data: seq<byte>, pos: nat, meta: seq<byte>, titleOption: seq<byte>, next: nat)
    requires PlainLine(meta)
    requires next == pos + |meta| + 1 && next <= |data| && data[pos..next] == meta + [Newline]
    ensures DecodeTitle(data, pos, titleOption) == TitleAt(meta, titleOption, next)
  {
    ReadLineOfLine(data, pos, meta);
  }

  /** After a written timestamp line, the next byte is the flags byte: it
      must exist and must not have bit 0x80 set. */
  lemma DecodeFlagsOfLine(data: seq<byte>, pos: nat, line: seq<byte>, next: nat)
    requires PlainLine(line) && StartsWith(line, [AtSign])
    requires next == pos + |line| + 1 && next <= |data| && data[pos..next] == line + [Newline]
    ensures DecodeFlags(data, pos) == FlagsAt(data, next)
  {
    ReadLineOfLine(data, pos, line);
  }

  /** The header reader, given the outcome of each stage. */
  lemma DecodeOfStages(data: seq<byte>, titleOption: seq<byte>, v: int, meta: seq<byte>,
                       p1: nat, p2: nat, p3: nat, n: nat)
    requires ReadLine(data, 0) == (Magic, p1)
    requires p1 <= |data| && DecodeVersion(data, p1) == VersionAt(v, p2)
    requires p2 <= |data| && DecodeTitle(data, p2, titleOption) == TitleAt(meta, titleOption, p3)
    requires p3 <= |data| && DecodeFlags(data, p3) == FlagsAt(data, n)
    ensures DecodeHeader(data, titleOption) == HeaderAt(v, meta, titleOption, data, n)
  {
    assert StartsWith(Magic, Magic);
    FieldsOfStages(data, titleOption, v, meta, p1, p2, p3, n);
  }

  lemma FieldsOfStages(data: seq<byte>, titleOption: seq<byte>, v: int, meta: seq<byte>,
                       p1: nat, p2: nat, p3: nat, n: nat)
    requires p1 <= |data| && DecodeVersion(data, p1) == VersionAt(v, p2)
    requires p2 <= |data| && DecodeTitle(data, p2, titleOption) == TitleAt(meta, titleOption, p3)
    requires p3 <= |data| && DecodeFlags(data, p3) == FlagsAt(data, n)
    ensures DecodeFields(data, p1, titleOption) == HeaderAt(v, meta, titleOption, data, n)
  {
    if v >= 8 {
      assert DecodeVersion(data, p1).value == (v, p2);
      if |titleOption| > 0 || Utf8Valid(BeforeNul(meta)) {
        assert DecodeTitle(data, p2, titleOption).value == (TitleOf(meta, titleOption), p3);
      }
    }
  }

  /** The signature line, a version line and a timestamp line are lines the
      reader gets back unchanged, and the version line reads as v. */
  lemma WrittenLines(v: int, l2: seq<byte>, stamp: seq<byte>, l4: seq<byte>)
    requires l2 == [LetterV] + VersionText(v)
    requires PlainLine(stamp) && l4 == [AtSign] + stamp
    ensures PlainLine(Magic)
    ensures PlainLine(l2) && StartsWith(l2, [LetterV]) && ParseInt(l2[1..]) == Some(v)
    ensures PlainLine(l4) && StartsWith(l4, [AtSign])
  {
    var d := VersionText(v);
    assert forall i | 1 <= i < |l2| :: l2[i] == d[i - 1];
    assert l2[1..] == d;
    ParseIntOfDecimal(v);
    assert forall i | 1 <= i < |l4| :: l4[i] == stamp[i - 1];
  }

  /** Where each of four newline-terminated lines sits in data. */
  lemma LinesAt(data: seq<byte>, l1: seq<byte>, l2: seq<byte>, l3: seq<byte>, l4: seq<byte>,
                p1: nat, p2: nat, p3: nat, n: nat)
    requires StartsWith(data, Lines(l1, l2, l3, l4))
    requires p1 == |l1| + 1 && p2 == p1 + |l2| + 1 && p3 == p2 + |l3| + 1 && n == |Lines(l1, l2, l3, l4)|
    ensures n == p3 + |l4| + 1 && n <= |data|
    ensures data[0..p1] == l1 + [Newline]
    ensures data[p1..p2] == l2 + [Newline]
    ensures data[p2..p3] == l3 + [Newline]
    ensures data[p3..n] == l4 + [Newline]
  {
    var e := Lines(l1, l2, l3, l4);
    SliceOfSlice(data, 0, e, 0, p1);
    SliceOfSlice(data, 0, e, p1, p2);
    SliceOfSlice(data, 0, e, p2, p3);
    SliceOfSlice(data, 0, e, p3, |e|);
    assert e[0..p1] == l1 + [Newline];
    assert e[p1..p2] == l2 + [Newline];
    assert e[p2..p3] == l3 + [Newline];
    assert e[p3..|e|] == l4 + [Newline];
  }

  /** Decoding header lines the reader gets back unchanged: the version
      check, the title check and the flags byte decide the outcome. */
  lemma DecodeOfPlainLines(data: seq<byte>, titleOption: seq<byte>, l2: seq<byte>, v: int,
                           meta: seq<byte>, l4: seq<byte>)
    requires PlainLine(Magic)
    requires PlainLine(l2) && StartsWith(l2, [LetterV]) && ParseInt(l2[1..]) == Some(v)
    requires PlainLine(meta)
    requires PlainLine(l4) && StartsWith(l4, [AtSign])
    requires StartsWith(data, Lines(Magic, l2, meta, l4))
    ensures DecodeHeader(data, titleOption) == HeaderAt(v, meta, titleOption, data, |Lines(Magic, l2, meta, l4)|)
  {
    var p1 := |Magic| + 1;
    var p2 := p1 + |l2| + 1;
    var p3 := p2 + |meta| + 1;
    var n := |Lines(Magic, l2, meta, l4)|;
    LinesAt(data, Magic, l2, meta, l4, p1, p2, p3, n);
    ReadLineOfLine(data, 0, Magic);
    DecodeVersionOfLine(data, p1, l2, v, p2);
    DecodeTitleOfLine(data, p2, meta, titleOption, p3);
    DecodeFlagsOfLine(data, p3, l4, n);
    DecodeOfStages(data, titleOption, v, meta, p1, p2, p3, n);
  }

  /** Decoding written header lines: the version check, the title check and
      the flags byte decide the outcome, and an accepted header ends just
      past the flags byte with the version, title and flags written. */
  lemma DecodeOfLines(h: HeaderText, titleOption: seq<byte>, data: seq<byte>)
    requires Writable(h)
    requires StartsWith(data, EncodeLines(h))
    ensures DecodeHeader(data, titleOption) ==
              var n := |EncodeLines(h)|;
              if h.version < 8 then Err(VersionTooOld)
              else if |titleOption| == 0 && !Utf8Valid(BeforeNul(h.meta)) then Err(TitleNotUtf8)
              else if n == |data| then Err(Truncated)
              else if data[n] >= 0x80 then Err(ExtendedElevation)
              else Ok((Header(h.version, TitleOf(h.meta, titleOption), data[n]), n + 1))
  {
    var l2 := [LetterV] + VersionText(h.version);
    var l4 := [AtSign] + h.stamp;
    WrittenLines(h.version, l2, h.stamp, l4);
    DecodeOfPlainLines(data, titleOption, l2, h.version, h.meta, l4);
  }

  // ---------------------------------------------------------------------
  // The whole file

  /** The item loop from the starting state (style 0xff, no position,
      empty accumulators) at pos. The rose drawn is the loop's final
      accumulators; anything after the end marker is never read. */
  function DecodeBody(cfg: Config, data: seq<byte>, pos: nat): (r: Result<Rose>)
    ensures pos >= |data| ==> r == Err(PrematureEnd)
    ensures DecodeRecords(cfg, Initial(cfg.ns), data, pos).Err? ==>
              r == Err(DecodeRecords(cfg, Initial(cfg.ns), data, pos).fault)
    ensures r.Ok? ==> Shaped(r.value, cfg.ns) && Balanced(r.value)
  {
    var body :- DecodeRecords(cfg, Initial(cfg.ns), data, pos);
    Ok(body.0.rose)
  }

  /** The header, then the item loop just past the flags byte. */
  function DecodeFile(cfg: Config, data: seq<byte>, titleOption: seq<byte>): (r: Result<(Header, Rose)>)
    ensures !StartsWith(data, Magic) ==> r == Err(NotSurvexFile)
    ensures DecodeHeader(data, titleOption).Err? ==> r == Err(DecodeHeader(data, titleOption).fault)
    ensures DecodeHeader(data, titleOption).Ok? && DecodeBody(cfg, data, DecodeHeader(data, titleOption).value.1).Err? ==>
              r == Err(DecodeBody(cfg, data, DecodeHeader(data, titleOption).value.1).fault)
    ensures r.Ok? ==> r.value.0.version >= 8 && r.value.0.flags < 0x80
    ensures r.Ok? ==> Shaped(r.value.1, cfg.ns) && Balanced(r.value.1)
  {
    var head :- DecodeHeader(data, titleOption);
    var rose :- DecodeBody(cfg, data, head.1);
    Ok((head.0, rose))
  }

  /** After an accepted header, records read one after another with the
      opcode table and applied cleanly from the starting state, then the
      end marker: the script draws the rose those records accumulate. With
      DecodeOfLines this covers a whole file as a writer lays it out. */
  lemma FileOfRecords(cfg: Config, data: seq<byte>, titleOption: seq<byte>, head: Header, pos: nat,
                      recs: seq<Record>, end: nat)
    requires DecodeHeader(data, titleOption) == Ok((head, pos))
    requires ParseAll(data, pos, |recs|) == Ok((recs, end))
    requires end + 2 <= |data| && data[end] == 0 && data[end + 1] == 0
    requires Quiet(cfg, Initial(cfg.ns), recs) && Run(cfg, Initial(cfg.ns), recs).Ok?
    ensures DecodeFile(cfg, data, titleOption) == Ok((head, Run(cfg, Initial(cfg.ns), recs).value.rose))
  {
    DecodeBodyOfRecords(cfg, data, pos, recs, end);
    DecodeFileOfHeader(cfg, data, titleOption, head, pos, Run(cfg, Initial(cfg.ns), recs).value.rose);
  }

  /** After an accepted header and records that apply cleanly, a pass that
      fails refuses the whole file with its fault: no rose is drawn. */
  lemma FileFaultOfRecords(cfg: Config, data: seq<byte>, titleOption: seq<byte>, head: Header, pos: nat,
                           recs: seq<Record>, end: nat)
    requires DecodeHeader(data, titleOption) == Ok((head, pos))
    requires ParseAll(data, pos, |recs|) == Ok((recs, end))
    requires Quiet(cfg, Initial(cfg.ns), recs) && Run(cfg, Initial(cfg.ns), recs).Ok?
    requires Step(cfg, Run(cfg, Initial(cfg.ns), recs).value, data, end).Err?
    ensures DecodeFile(cfg, data, titleOption) == Err(Step(cfg, Run(cfg, Initial(cfg.ns), recs).value, data, end).fault)
  {
    DecodeFails(cfg, Initial(cfg.ns), data, pos, recs, end);
  }

  /** The item loop over records that apply cleanly, then the end marker. */
  lemma DecodeBodyOfRecords(cfg: Config, data: seq<byte>, pos: nat, recs: seq<Record>, end: nat)
    requires ParseAll(data, pos, |recs|) == Ok((recs, end))
    requires end + 2 <= |data| && data[end] == 0 && data[end + 1] == 0
    requires Quiet(cfg, Initial(cfg.ns), recs) && Run(cfg, Initial(cfg.ns), recs).Ok?
    ensures DecodeBody(cfg, data, pos) == Ok(Run(cfg, Initial(cfg.ns), recs).value.rose)
  {
    DecodeTerminated(cfg, Initial(cfg.ns), data, pos, recs, end);
  }

  lemma DecodeFileOfHeader(cfg: Config, data: seq<byte>, titleOption: seq<byte>, head: Header, pos: nat, rose: Rose)
    requires DecodeHeader(data, titleOption) == Ok((head, pos))
    requires DecodeBody(cfg, data, pos) == Ok(rose)
    ensures DecodeFile(cfg, data, titleOption) == Ok((head, rose))
  {
  }
}

=== FILE: legs.dfy ===
/** What a LINE record does to the running totals and to the rose's sector
    table (rose_create.py:192-229): classify the leg, add it to one of four
    tallies, and put underground legs with horizontal extent into two of the
    `ns` sectors.

    The script's floating-point geometry (`sqrt`, `atan2`) is a parameter:
    `Geometry` supplies the slant length, horizontal length and bearing of a
    leg from its integer deltas. The angle normalisation and the sector
    rounding are modelled exactly over the reals. */
module Legs {
  import opened Bytes
  import opened Results
  import opened Primitives

  datatype LegClass = Surface | Duplicate | Splay | Underground

  /** The class a LINE flag field selects; the lowest set bit among 0x01,
      0x02 and 0x04 wins, and none set means underground. */
  function ClassOf(flags: byte): LegClass {
    if Bit(flags, 0) then Surface
    else if Bit(flags, 1) then Duplicate
    else if Bit(flags, 2) then Splay
    else Underground
  }

  /** The class depends on the three low flag bits only, and a leg is
      underground exactly when all three are clear. */
  lemma ClassOfLowBits(flags: byte)
    ensures ClassOf(flags) == ClassOf(flags % 8)
    ensures ClassOf(flags) == Underground <==> flags % 8 == 0
    ensures ClassOf(flags) == Surface <==> flags % 2 == 1
  {
    var q, r := flags / 8, flags % 8;
    assert flags == 8 * q + r;
    assert flags / 2 == 4 * q + r / 2;
    assert flags / 4 == 2 * q + r / 4;
  }

  /** The floating-point part of the script, left abstract: slant length,
      horizontal length and bearing in degrees, each computed from the
      integer deltas of a leg in centimetres. */
  datatype Geometry = Geometry(
    slant: (int, int, int) -> real,
    horiz: (int, int) -> real,
    bearing: (int, int) -> real)

  /** The script's ten accumulators. */
  datatype Totals = Totals(
    nlegs: nat, nsurf: nat, ndup: nat, nsplay: nat, nhoriz: nat,
    tlegs: real, tsurf: real, tdup: real, tsplay: real, thoriz: real)

  const NoLegs := Totals(0, 0, 0, 0, 0, 0.0, 0.0, 0.0, 0.0, 0.0)

  /** The leg counter of one class. */
  function Count(t: Totals, c: LegClass): nat {
    match c
    case Surface => t.nsurf
    case Duplicate => t.ndup
    case Splay => t.nsplay
    case Underground => t.nlegs
  }

  /** The summed slant length of one class. */
  function Length(t: Totals, c: LegClass): real {
    match c
    case Surface => t.tsurf
    case Duplicate => t.tdup
    case Splay => t.tsplay
    case Underground => t.tlegs
  }

  /** Every LINE record seen so far, whatever its class. */
  function LegCount(t: Totals): nat {
    t.nlegs + t.nsurf + t.ndup + t.nsplay
  }

  /** Totals and the two sector lists `nsector` (leg counts) and `tsector`
      (horizontal lengths). */
  datatype Rose = Rose(totals: Totals, nsector: seq<nat>, tsector: seq<real>)

  /** Python's `[0] * ns`, empty when ns is not positive. */
  function SectorCount(ns: int): nat {
    if ns > 0 then ns else 0
  }

  function EmptyRose(ns: int): (r: Rose)
    ensures Shaped(r, ns) && Balanced(r)
    ensures forall i | 0 <= i < SectorCount(ns) :: r.nsector[i] == 0 && r.tsector[i] == 0.0
  {
    var r := Rose(NoLegs, seq(SectorCount(ns), _ => 0), seq(SectorCount(ns), _ => 0.0));
    SumZeros(r.nsector);
    SumRZeros(r.tsector);
    r
  }

  predicate Shaped(r: Rose, ns: int) {
    |r.nsector| == SectorCount(ns) && |r.tsector| == SectorCount(ns)
  }

  function Sum(s: seq<nat>): nat {
    if |s| == 0 then 0 else s[0] + Sum(s[1..])
  }

  function SumR(s: seq<real>): real {
    if |s| == 0 then 0.0 else s[0] + SumR(s[1..])
  }

  /** The rose's bookkeeping invariant: each binned leg is counted in exactly
      two sectors and its horizontal length is added to both, and only
      underground legs are binned. */
  predicate Balanced(r: Rose) {
    && Sum(r.nsector) == 2 * r.totals.nhoriz
    && SumR(r.tsector) == 2.0 * r.totals.thoriz
    && r.totals.nhoriz <= r.totals.nlegs
  }

  lemma {:induction false} SumZeros(s: seq<nat>)
    requires forall i | 0 <= i < |s| :: s[i] == 0
    ensures Sum(s) == 0
  {
    if |s| > 0 {
      SumZeros(s[1..]);
    }
  }

  lemma {:induction false} SumRZeros(s: seq<real>)
    requires forall i | 0 <= i < |s| :: s[i] == 0.0
    ensures SumR(s) == 0.0
  {
    if |s| > 0 {
      SumRZeros(s[1..]);
    }
  }

  /** Adding d to one entry adds d to the sum. */
  lemma {:induction false} SumBump(s: seq<nat>, i: nat, d: nat)
    requires i < |s|
    ensures Sum(s[i := s[i] + d]) == Sum(s) + d
  {
    if i > 0 {
      assert s[i := s[i] + d][1..] == s[1..][i - 1 := s[i] + d];
      SumBump(s[1..], i - 1, d);
    }
  }

  lemma {:induction false} SumRBump(s: seq<real>, i: nat, d: real)
    requires i < |s|
    ensures SumR(s[i := s[i] + d]) == SumR(s) + d
  {
    if i > 0 {
      assert s[i := s[i] + d][1..] == s[1..][i - 1 := s[i] + d];
      SumRBump(s[1..], i - 1, d);
    }
  }

  /** k whole turns, in degrees. */
  function Turns(k: int): real {
    360.0 * k as real
  }

  /** d is a whole number of turns of 360 degrees. */
  ghost predicate WholeTurns(d: real) {
    exists k: int :: d == Turns(k)
  }

  lemma WholeTurnsSum(a: real, b: real)
    requires WholeTurns(a) && WholeTurns(b)
    ensures WholeTurns(a + b)
  {
    var ka :| a == Turns(ka);
    var kb :| b == Turns(kb);
    assert a + b == Turns(ka + kb);
  }

  lemma WholeTurnsNegate(a: real)
    requires WholeTurns(a)
    ensures WholeTurns(-a)
  {
    var k :| a == Turns(k);
    assert -a == Turns(-k);
  }

  /** `while ang < 0: ang += 360`. */
  function RaiseAngle(ang: real): (r: real)
    ensures r >= 0.0
    ensures ang < 0.0 ==> r < 360.0
    ensures ang >= 0.0 ==> r == ang
    ensures WholeTurns(r - ang)
    decreases (-ang).Floor
  {
    if ang < 0.0 then
      var r := RaiseAngle(ang + 360.0);
      assert 360.0 == Turns(1);
      WholeTurnsSum(r - (ang + 360.0), 360.0);
      r
    else
      assert ang - ang == Turns(0);
      ang
  }

  /** `while ang >= 360: ang -= 360`. */
  function LowerAngle(ang: real): (r: real)
    ensures r < 360.0
    ensures ang >= 0.0 ==> r >= 0.0
    ensures ang < 360.0 ==> r == ang
    ensures WholeTurns(r - ang)
    decreases ang.Floor
  {
    if ang >= 360.0 then
      var r := LowerAngle(ang - 360.0);
      assert -360.0 == Turns(-1);
      WholeTurnsSum(r - (ang - 360.0), -360.0);
      r
    else
      assert ang - ang == Turns(0);
      ang
  }

  /** Both normalisation loops in turn: an angle in [0, 360) a whole number
      of turns away from the input. */
  function Normalise(ang: real): (r: real)
    ensures 0.0 <= r < 360.0
    ensures WholeTurns(r - ang)
  {
    var up := RaiseAngle(ang);
    var r := LowerAngle(up);
    WholeTurnsSum(r - up, up - ang);
    r
  }

  /** Two angles in [0, 360) that differ by whole turns are equal. */
  lemma SameTurnClass(a: real, b: real)
    requires 0.0 <= a < 360.0 && 0.0 <= b < 360.0
    requires WholeTurns(a - b)
    ensures a == b
  {
    var k :| a - b == Turns(k);
    assert -360.0 < Turns(k) < 360.0;
    assert k == 0;
  }

  /** Normalise picks the one representative in [0, 360): any angle in that
      range a whole number of turns from the input is the result. */
  lemma NormaliseUnique(ang: real, a: real)
    requires 0.0 <= a < 360.0
    requires WholeTurns(a - ang)
    ensures Normalise(ang) == a
  {
    var r := Normalise(ang);
    WholeTurnsNegate(a - ang);
    WholeTurnsSum(r - ang, -(a - ang));
    assert r - a == (r - ang) + -(a - ang);
    SameTurnClass(r, a);
  }

  /** Python 2's `round()`: to the nearest integer, halves away from zero. */
  function RoundHalfAway(x: real): (n: int)
    ensures x >= 0.0 ==> n as real - 0.5 <= x < n as real + 0.5
    ensures x < 0.0 ==> n as real - 0.5 < x <= n as real + 0.5
  {
    if x >= 0.0 then (x + 0.5).Floor else -((-x + 0.5).Floor)
  }

  /** `int(round(ns * ang / 360)) % ns` for an angle already in [0, 360).
      The rounded position lies in [0, ns], so the reduction modulo ns only
      sends ns itself to 0 (see SectorOfModulo). */
  function SectorOf(ns: int, ang: real): (i: int)
    requires ns > 0 && 0.0 <= ang < 360.0
    ensures 0 <= i < ns
  {
    RoundedPosition(ns, ang);
    var n := Position(ns, ang);
    if n < ns then n else 0
  }

  /** `round(ns * ang / 360)`: where ang falls on a scale of ns sectors. */
  function Position(ns: int, ang: real): int {
    RoundHalfAway(ns as real * ang / 360.0)
  }

  /** SectorOf is the script's expression, Python's `%` included. */
  lemma SectorOfModulo(ns: int, ang: real)
    requires ns > 0 && 0.0 <= ang < 360.0
    ensures SectorOf(ns, ang) == RoundHalfAway(ns as real * ang / 360.0) % ns
  {
    RoundedPosition(ns, ang);
    ModOfRange(Position(ns, ang), ns);
  }

  /** The sector of an angle is the one whose centre, 360 i / ns degrees,
      lies nearest to it; an angle within half a sector of 360 wraps round
      to sector 0. */
  lemma SectorOfNearest(ns: int, ang: real)
    requires ns > 0 && 0.0 <= ang < 360.0
    ensures var i := SectorOf(ns, ang);
            var x := ns as real * ang / 360.0;
            || (i as real - 0.5 <= x < i as real + 0.5)
            || (i == 0 && ns as real - 0.5 <= x)
  {
  }

  /** The two sectors a leg of bearing b is put into: that of b and that of
      b + 180, each normalised first. */
  function Sectors(ns: int, b: real): (r: (int, int))
    requires ns > 0
    ensures 0 <= r.0 < ns && 0 <= r.1 < ns
  {
    (SectorOf(ns, Normalise(b)), SectorOf(ns, Normalise(b + 180.0)))
  }

  /** Half a turn on: the normalised reciprocal of b is Normalise(b) moved
      by 180 degrees within [0, 360). */
  lemma ReciprocalAngle(b: real)
    ensures var a := Normalise(b);
            Normalise(b + 180.0) == if a < 180.0 then a + 180.0 else a - 180.0
  {
    var a := Normalise(b);
    var a2 := if a < 180.0 then a + 180.0 else a - 180.0;
    var k :| a - b == Turns(k);
    if a < 180.0 {
      assert a2 - (b + 180.0) == Turns(k);
    } else {
      assert a2 - (b + 180.0) == Turns(k - 1);
    }
    NormaliseUnique(b + 180.0, a2);
  }

  /** Moving a non-negative value by a whole number moves its rounding by
      the same amount. */
  lemma RoundShift(x: real, k: nat)
    requires x >= 0.0
    ensures RoundHalfAway(x + k as real) == RoundHalfAway(x) + k
  {
    assert x + k as real + 0.5 == (x + 0.5) + k as real;
  }

  /** Half a turn is half the sectors: scaling a + 180 gives the scaled a
      plus ns / 2. */
  lemma HalfTurnScale(ns: int, h: nat, a: real)
    requires ns == 2 * h
    ensures ns as real * (a + 180.0) / 360.0 == ns as real * a / 360.0 + h as real
  {
    assert ns as real == 2.0 * h as real;
    assert ns as real * (a + 180.0) == ns as real * a + 360.0 * h as real;
  }

  /** The rounded sector positions of an angle in [0, 360) lie in [0, ns]. */
  lemma RoundedPosition(ns: int, a: real)
    requires ns > 0 && 0.0 <= a < 360.0
    ensures 0 <= Position(ns, a) <= ns
  {
    assert ns as real * a < ns as real * 360.0;
  }

  /** Rounded positions of two angles half a turn apart differ by ns / 2. */
  lemma RoundedHalfTurn(ns: int, h: nat, lo: real, hi: real)
    requires ns > 0 && ns == 2 * h && 0.0 <= lo && hi == lo + 180.0
    ensures Position(ns, hi) == Position(ns, lo) + h
  {
    HalfTurnScale(ns, h, lo);
    RoundShift(ns as real * lo / 360.0, h);
  }

  /** With an even number of sectors the second sector is exactly opposite
      the first, so the rose is symmetric. */
  lemma SectorsOpposite(ns: int, b: real)
    requires ns > 0 && ns % 2 == 0
    ensures Sectors(ns, b).1 == (Sectors(ns, b).0 + ns / 2) % ns
  {
    var h := ns / 2;
    ReciprocalAngle(b);
    var a, a2 := Normalise(b), Normalise(b + 180.0);
    HalfTurnPositions(ns, h, a, a2);
    assert Sectors(ns, b) == (SectorOf(ns, a), SectorOf(ns, a2));
    ModOfRange(SectorOf(ns, a) + h, ns);
  }

  /** An angle and its reciprocal, both in [0, 360), fall into sectors
      half the table apart. */
  lemma HalfTurnPositions(ns: int, h: nat, a: real, a2: real)
    requires ns > 0 && ns == 2 * h
    requires 0.0 <= a < 360.0
    requires a2 == if a < 180.0 then a + 180.0 else a - 180.0
    ensures var i := SectorOf(ns, a);
            SectorOf(ns, a2) == if i + h < ns then i + h else i + h - ns
  {
    RoundedPosition(ns, a);
    RoundedPosition(ns, a2);
    var n := Position(ns, a);
    var n2 := Position(ns, a2);
    if a < 180.0 {
      RoundedHalfTurn(ns, h, a, a2);
    } else {
      RoundedHalfTurn(ns, h, a2, a);
    }
    OppositePositions(ns, h, n, n2);
  }

  /** Whole positions in [0, ns] half the table apart name opposite
      sectors. */
  lemma OppositePositions(ns: int, h: nat, n: int, n2: int)
    requires ns > 0 && ns == 2 * h
    requires 0 <= n <= ns && 0 <= n2 <= ns
    requires n2 == n + h || n == n2 + h
    ensures var i := if n < ns then n else 0;
            (if n2 < ns then n2 else 0) == if i + h < ns then i + h else i + h - ns
  {
  }

  lemma ModOfRange(m: int, ns: int)
    requires ns > 0 && 0 <= m < 2 * ns
    ensures m % ns == if m < ns then m else m - ns
  {
    if m >= ns {
      assert m == 1 * ns + (m - ns);
    }
  }

  /** A leg has horizontal extent when its east or north delta is nonzero;
      the script's test `lhoriz > 0.0` on the square root of the scaled
      deltas holds exactly then. */
  predicate Horizontal(from: Point, to: Point) {
    to.x - from.x != 0 || to.y - from.y != 0
  }

  /** A leg that the sector table receives. */
  predicate Binned(flags: byte, from: Point, to: Point) {
    ClassOf(flags) == Underground && Horizontal(from, to)
  }

  /** The sector update for one binned leg of horizontal length h and
      bearing b: one more binned leg, and exactly the two sectors of b and
      b + 180 (possibly the same one) receive a count and h each. */
  function Deposit(rose: Rose, ns: int, h: real, b: real): (r: Rose)
    requires ns > 0 && Shaped(rose, ns)
    ensures Shaped(r, ns)
    ensures r.totals == rose.totals.(nhoriz := rose.totals.nhoriz + 1, thoriz := rose.totals.thoriz + h)
    ensures var (i, j) := Sectors(ns, b);
            && (forall k | 0 <= k < ns ::
                  r.nsector[k] == rose.nsector[k] + (if k == i then 1 else 0) + (if k == j then 1 else 0))
            && (forall k | 0 <= k < ns ::
                  r.tsector[k] == rose.tsector[k] + (if k == i then h else 0.0) + (if k == j then h else 0.0))
    ensures Sum(r.nsector) == Sum(rose.nsector) + 2
    ensures SumR(r.tsector) == SumR(rose.tsector) + 2.0 * h
  {
    var t := rose.totals;
    var (i, j) := Sectors(ns, b);
    var n1 := rose.nsector[i := rose.nsector[i] + 1];
    var t1 := rose.tsector[i := rose.tsector[i] + h];
    SumBump(rose.nsector, i, 1);
    SumBump(n1, j, 1);
    SumRBump(rose.tsector, i, h);
    SumRBump(t1, j, h);
    Rose(t.(nhoriz := t.nhoriz + 1, thoriz := t.thoriz + h), n1[j := n1[j] + 1], t1[j := t1[j] + h])
  }

  /** One more leg of class c and slant length len: that class's counter
      and length grow, nothing else changes. */
  function Tally(t: Totals, c: LegClass, len: real): (r: Totals)
    ensures forall k: LegClass :: Count(r, k) == Count(t, k) + (if k == c then 1 else 0)
    ensures forall k: LegClass :: Length(r, k) == Length(t, k) + (if k == c then len else 0.0)
    ensures LegCount(r) == LegCount(t) + 1
    ensures r.nhoriz == t.nhoriz && r.thoriz == t.thoriz
  {
    match c
    case Surface => t.(tsurf := t.tsurf + len, nsurf := t.nsurf + 1)
    case Duplicate => t.(tdup := t.tdup + len, ndup := t.ndup + 1)
    case Splay => t.(tsplay := t.tsplay + len, nsplay := t.nsplay + 1)
    case Underground => t.(tlegs := t.tlegs + len, nlegs := t.nlegs + 1)
  }

  /** The effect of one LINE record with the given flag field, from the
      current position `from` to the newly read `to`. */
  function AddLeg(rose: Rose, ns: int, geo: Geometry, flags: byte, from: Point, to: Point): (r: Result<Rose>)
    requires Shaped(rose, ns)
    ensures r.Err? <==> Binned(flags, from, to) && ns <= 0
    ensures r.Err? ==> r.fault == NoSectors
    ensures r.Ok? ==> Shaped(r.value, ns)
    ensures r.Ok? ==> LegCount(r.value.totals) == LegCount(rose.totals) + 1
    ensures r.Ok? ==> forall c: LegClass :: Count(r.value.totals, c) ==
                                             Count(rose.totals, c) + (if c == ClassOf(flags) then 1 else 0)
    ensures r.Ok? ==> forall c: LegClass :: Length(r.value.totals, c) ==
                                             Length(rose.totals, c) +
                                             (if c == ClassOf(flags)
                                              then geo.slant(to.x - from.x, to.y - from.y, to.z - from.z)
                                              else 0.0)
    ensures r.Ok? && !Binned(flags, from, to) ==>
              && r.value.nsector == rose.nsector && r.value.tsector == rose.tsector
              && r.value.totals.nhoriz == rose.totals.nhoriz
              && r.value.totals.thoriz == rose.totals.thoriz
    ensures r.Ok? && Binned(flags, from, to) ==>
              var (dx, dy) := (to.x - from.x, to.y - from.y);
              && r.value.totals.nhoriz == rose.totals.nhoriz + 1
              && r.value.totals.thoriz == rose.totals.thoriz + geo.horiz(dx, dy)
              && var (h, (i, j)) := (geo.horiz(dx, dy), Sectors(ns, geo.bearing(dx, dy)));
              && (forall k | 0 <= k < ns ::
                    r.value.nsector[k] == rose.nsector[k] + (if k == i then 1 else 0) + (if k == j then 1 else 0))
              && (forall k | 0 <= k < ns ::
                    r.value.tsector[k] == rose.tsector[k] + (if k == i then h else 0.0) + (if k == j then h else 0.0))
    ensures r.Ok? && Balanced(rose) ==> Balanced(r.value)
  {
    var (dx, dy, dz) := (to.x - from.x, to.y - from.y, to.z - from.z);
    var leg := rose.(totals := Tally(rose.totals, ClassOf(flags), geo.slant(dx, dy, dz)));
    if !Binned(flags, from, to) then Ok(leg)
    else if ns <= 0 then Err(NoSectors)
    else Ok(Deposit(leg, ns, geo.horiz(dx, dy), geo.bearing(dx, dy)))
  }

  /** A binned due-north leg (no change in x, a rise in y) with 16 sectors:
      `atan2(0, dy)` is exactly 0 for dy > 0, and with that bearing the leg
      counts once in sector 0 and once in sector 8, adding its horizontal
      length to each, and no other sector changes. */
  lemma NorthLegSectors(rose: Rose, geo: Geometry, flags: byte, from: Point, to: Point)
    requires Shaped(rose, 16) && Binned(flags, from, to)
    requires to.x == from.x && to.y > from.y && geo.bearing(0, to.y - from.y) == 0.0
    ensures Sectors(16, 0.0) == (0, 8)
    ensures AddLeg(rose, 16, geo, flags, from, to).Ok?
    ensures var (r, h) := (AddLeg(rose, 16, geo, flags, from, to).value, geo.horiz(0, to.y - from.y));
            && r.nsector[0] == rose.nsector[0] + 1 && r.tsector[0] == rose.tsector[0] + h
            && r.nsector[8] == rose.nsector[8] + 1 && r.tsector[8] == rose.tsector[8] + h
            && forall k | 0 <= k < 16 && k != 0 && k != 8 ::
                 r.nsector[k] == rose.nsector[k] && r.tsector[k] == rose.tsector[k]
  {
    assert Normalise(180.0) == 180.0;
    assert Sectors(16, 0.0) == (0, 8);
  }

  /** A bearing of 354 degrees with 16 sectors rounds up to 16 and wraps to
      sector 0 rather than leaving the table. */
  lemma WrapAroundSector()
    ensures SectorOf(16, 354.0) == 0
  {
    assert RoundHalfAway(16.0 * 354.0 / 360.0) == 16;
  }
}

=== FILE: primitives.dfy ===
/** The variable-length field readers of the .3d format (`read_xyz`,
    `read_len`, `read_label` in rose_create.py) over a byte sequence and a
    cursor, together with the encoders they invert.

    Python's `fp.read(n)` returns fewer than n bytes at the end of the file
    rather than failing; a failure only follows when the short string reaches
    `ord()` (TypeError) or `struct.unpack` (struct.error). Both are `Truncated`
    here. */
module Primitives {
  import opened Bytes
  import opened Results

  /** A station position: three signed 32-bit integers in centimetres. */
  datatype Point = Point(x: int, y: int, z: int)

  predicate PointInRange(p: Point) {
    IsInt32(p.x) && IsInt32(p.y) && IsInt32(p.z)
  }

  /** `fp.read(n)` whose result goes to `struct.unpack`: exactly n bytes, or
      Truncated when fewer remain. */
  function ReadExact(data: seq<byte>, pos: nat, n: nat): (r: Result<(seq<byte>, nat)>)
    ensures r.Ok? <==> pos + n <= |data|
    ensures r.Ok? ==> r.value.1 == pos + n && r.value.0 == data[pos..pos + n]
    ensures r.Err? ==> r.fault == Truncated
  {
    if pos + n <= |data| then Ok((data[pos..pos + n], pos + n)) else Err(Truncated)
  }

  /** `fp.read(n)` whose result is not length-checked: at most n bytes, fewer
      only when the data runs out. */
  function ReadUpTo(data: seq<byte>, pos: nat, n: nat): (s: seq<byte>)
    ensures |s| <= n
    ensures |s| < n ==> pos + |s| >= |data|
    ensures pos <= |data| ==> pos + |s| <= |data| && s == data[pos..pos + |s|]
  {
    if pos + n <= |data| then data[pos..pos + n]
    else if pos <= |data| then data[pos..]
    else []
  }

  function PointOf(s: seq<byte>): Point
    requires |s| == 12
  {
    Point(Signed32(s[0..4]), Signed32(s[4..8]), Signed32(s[8..12]))
  }

  function PointBytes(p: Point): (s: seq<byte>)
    requires PointInRange(p)
    ensures |s| == 12
  {
    Signed32Bytes(p.x) + Signed32Bytes(p.y) + Signed32Bytes(p.z)
  }

  /** The point held by the 12 bytes that end at `end`. */
  function PointBefore(data: seq<byte>, end: nat): Point
    requires 12 <= end <= |data|
  {
    PointOf(data[end - 12..end])
  }

  /** `read_xyz`: three '<i' integers. The position read back is always a
      32-bit point, and exactly 12 bytes are consumed. */
  function ReadXyz(data: seq<byte>, pos: nat): (r: Result<(Point, nat)>)
    ensures r.Ok? <==> pos + 12 <= |data|
    ensures r.Ok? ==> r.value.1 == pos + 12 && PointInRange(r.value.0)
    ensures r.Ok? ==> r.value.0 == PointBefore(data, r.value.1)
    ensures r.Err? ==> r.fault == Truncated
  {
    var w :- ReadExact(data, pos, 12);
    Ok((PointOf(w.0), w.1))
  }

  lemma ReadXyzOfPointBytes(data: seq<byte>, pos: nat, p: Point)
    requires PointInRange(p)
    requires pos + 12 <= |data| && data[pos..pos + 12] == PointBytes(p)
    ensures ReadXyz(data, pos) == Ok((p, pos + 12))
  {
    var s := data[pos..pos + 12];
    assert s[0..4] == Signed32Bytes(p.x);
    assert s[4..8] == Signed32Bytes(p.y);
    assert s[8..12] == Signed32Bytes(p.z);
  }

  /** Bytes a length field occupies, judged from its first byte. */
  function LenWidth(first: byte): nat {
    if first == 0xff then 5 else 1
  }

  /** `read_len`: one byte holding the value, or 0xff followed by the value
      as a little-endian u32. */
  function ReadLen(data: seq<byte>, pos: nat): (r: Result<(nat, nat)>)
    ensures pos < |data| && data[pos] != 0xff ==> r == Ok((data[pos], pos + 1))
    ensures pos + 5 <= |data| && data[pos] == 0xff ==>
              r == Ok((Unsigned(data[pos + 1..pos + 5]), pos + 5))
    ensures r.Ok? <==> pos < |data| && pos + LenWidth(data[pos]) <= |data|
    ensures r.Ok? ==> r.value.0 < TwoTo32 && r.value.1 == pos + LenWidth(data[pos])
    ensures r.Err? ==> r.fault == Truncated
  {
    if pos >= |data| then Err(Truncated)
    else if data[pos] != 0xff then Ok((data[pos], pos + 1))
    else
      Pow256Four();
      var w :- ReadExact(data, pos + 1, 4);
      Ok((Unsigned(w.0), w.1))
  }

  /** The shortest length field holding n. */
  function EncodeLen(n: nat): (s: seq<byte>)
    requires n < TwoTo32
    ensures |s| == 1 || |s| == 5
  {
    Pow256Four();
    if n < 0xff then [n] else [0xff] + LittleEndian(n, 4)
  }

  /** `read_len` inverts `EncodeLen` wherever the encoding sits in the file. */
  lemma ReadLenOfEncoding(data: seq<byte>, pos: nat, n: nat)
    requires n < TwoTo32
    requires pos + |EncodeLen(n)| <= |data|
    requires data[pos..pos + |EncodeLen(n)|] == EncodeLen(n)
    ensures ReadLen(data, pos) == Ok((n, pos + |EncodeLen(n)|))
  {
    var e := EncodeLen(n);
    assert data[pos] == e[0];
    if n >= 0xff {
      Pow256Four();
      SliceOfSlice(data, pos, e, 1, 5);
      assert e[1..5] == LittleEndian(n, 4);
    }
  }

  /** One label field. The script reads the delete count and the added text
      and discards both; they are kept here so that the field can be stated
      and re-encoded. `text` is shorter than `nadd` only when the file ended
      inside it. */
  datatype Label = Label(ndel: nat, nadd: nat, text: seq<byte>)

  /** The counts of a label field and where its text begins: a packed byte
      (delete count in the high nibble, add count in the low nibble), or a
      zero byte followed by two length fields. */
  function LabelHeader(data: seq<byte>, pos: nat): (r: Result<(nat, nat, nat)>)
    ensures pos < |data| && data[pos] != 0 ==> r == Ok((data[pos] / 16, data[pos] % 16, pos + 1))
    ensures pos < |data| && data[pos] == 0 && r.Ok? ==>
              && ReadLen(data, pos + 1).Ok?
              && ReadLen(data, ReadLen(data, pos + 1).value.1).Ok?
              && r.value.2 == pos + 1 + LenWidth(data[pos + 1])
                                  + LenWidth(data[pos + 1 + LenWidth(data[pos + 1])])
    ensures r.Ok? ==> pos < r.value.2 <= |data| && r.value.0 < TwoTo32 && r.value.1 < TwoTo32
    ensures r.Err? ==> r.fault == Truncated
  {
    if pos >= |data| then Err(Truncated)
    else if data[pos] != 0 then Ok((data[pos] / 16, data[pos] % 16, pos + 1))
    else
      var del :- ReadLen(data, pos + 1);
      var add :- ReadLen(data, del.1);
      Ok((del.0, add.0, add.1))
  }

  /** `read_label`: the field's counts, then `nadd` bytes that must decode as
      ASCII. A short text read is not itself an error in the script. */
  function ReadLabel(data: seq<byte>, pos: nat): (r: Result<(Label, nat)>)
    ensures r.Ok? <==> LabelHeader(data, pos).Ok? &&
                       AllAscii(ReadUpTo(data, LabelHeader(data, pos).value.2,
                                         LabelHeader(data, pos).value.1))
    ensures LabelHeader(data, pos).Ok? && r.Err? ==> r.fault == LabelNotAscii
    ensures LabelHeader(data, pos).Err? ==> r.fault == Truncated
    ensures r.Ok? ==>
              var (ndel, nadd, start) := LabelHeader(data, pos).value;
              var (l, next) := r.value;
              && l.ndel == ndel && l.nadd == nadd
              && next == start + |l.text| <= |data|
              && l.text == data[start..next]
              && |l.text| <= nadd
              && (|l.text| < nadd ==> next == |data|)
  {
    var h :- LabelHeader(data, pos);
    var text := ReadUpTo(data, h.2, h.1);
    if AllAscii(text) then Ok((Label(h.0, h.1, text), h.2 + |text|)) else Err(LabelNotAscii)
  }

  /** A label that can be written out in full: counts that fit a length
      field and complete ASCII text. */
  predicate LabelOk(l: Label) {
    l.ndel < TwoTo32 && l.nadd < TwoTo32 && |l.text| == l.nadd && AllAscii(l.text)
  }

  /** Whether the packed one-byte header can hold the counts: both below 16
      and not both zero (a zero byte announces the long form). */
  predicate Packable(l: Label) {
    l.ndel < 16 && l.nadd < 16 && (l.ndel > 0 || l.nadd > 0)
  }

  /** The canonical encoding of a label field. */
  function EncodeLabel(l: Label): (s: seq<byte>)
    requires LabelOk(l)
    ensures |s| > 0
  {
    if Packable(l) then [l.ndel * 16 + l.nadd] + l.text
    else [0] + EncodeLen(l.ndel) + EncodeLen(l.nadd) + l.text
  }

  /** `read_label` inverts `EncodeLabel`, consuming the whole field. */
  lemma ReadLabelOfEncoding(data: seq<byte>, pos: nat, l: Label)
    requires LabelOk(l)
    requires pos + |EncodeLabel(l)| <= |data|
    requires data[pos..pos + |EncodeLabel(l)|] == EncodeLabel(l)
    ensures ReadLabel(data, pos) == Ok((l, pos + |EncodeLabel(l)|))
  {
    var start := pos + |EncodeLabel(l)| - l.nadd;
    HeaderOfEncoding(data, pos, l);
    TextOfEncoding(data, pos, l);
    ReadLabelOfHeader(data, pos, l, start);
  }

  lemma HeaderOfEncoding(data: seq<byte>, pos: nat, l: Label)
    requires LabelOk(l)
    requires pos + |EncodeLabel(l)| <= |data|
    requires data[pos..pos + |EncodeLabel(l)|] == EncodeLabel(l)
    ensures LabelHeader(data, pos) == Ok((l.ndel, l.nadd, pos + |EncodeLabel(l)| - l.nadd))
  {
    if Packable(l) {
      PackedHeader(data, pos, l);
    } else {
      LongHeader(data, pos, l);
    }
  }

  /** The text of an encoded label is its last nadd bytes. */
  lemma TextOfEncoding(data: seq<byte>, pos: nat, l: Label)
    requires LabelOk(l)
    requires pos + |EncodeLabel(l)| <= |data|
    requires data[pos..pos + |EncodeLabel(l)|] == EncodeLabel(l)
    ensures |EncodeLabel(l)| >= l.nadd
    ensures data[pos + |EncodeLabel(l)| - l.nadd..pos + |EncodeLabel(l)|] == l.text
  {
    var e := EncodeLabel(l);
    SliceOfSlice(data, pos, e, |e| - l.nadd, |e|);
    assert e[|e| - l.nadd..] == l.text;
  }

  /** Once the counts are read, the label is the next nadd bytes. */
  lemma ReadLabelOfHeader(data: seq<byte>, pos: nat, l: Label, start: nat)
    requires LabelOk(l) && LabelHeader(data, pos) == Ok((l.ndel, l.nadd, start))
    requires start + l.nadd <= |data| && data[start..start + l.nadd] == l.text
    ensures ReadLabel(data, pos) == Ok((l, start + l.nadd))
  {
    assert ReadUpTo(data, start, l.nadd) == l.text;
  }

  /** After a zero byte the two counts are read with read_len, deletions
      first: the header is whatever the two reads give, and it fails
      exactly when one of them does. */
  lemma LongHeaderReads(data: seq<byte>, pos: nat)
    requires pos < |data| && data[pos] == 0
    ensures ReadLen(data, pos + 1).Ok? && ReadLen(data, ReadLen(data, pos + 1).value.1).Ok? ==>
              LabelHeader(data, pos) == Ok((ReadLen(data, pos + 1).value.0,
                                            ReadLen(data, ReadLen(data, pos + 1).value.1).value.0,
                                            ReadLen(data, ReadLen(data, pos + 1).value.1).value.1))
    ensures ReadLen(data, pos + 1).Err? || ReadLen(data, ReadLen(data, pos + 1).value.1).Err? ==>
              LabelHeader(data, pos) == Err(Truncated)
  {
  }

  lemma PackedHeader(data: seq<byte>, pos: nat, l: Label)
    requires LabelOk(l) && Packable(l)
    requires pos + |EncodeLabel(l)| <= |data|
    requires data[pos..pos + |EncodeLabel(l)|] == EncodeLabel(l)
    ensures LabelHeader(data, pos) == Ok((l.ndel, l.nadd, pos + |EncodeLabel(l)| - l.nadd))
  {
    assert data[pos] == EncodeLabel(l)[0] == l.ndel * 16 + l.nadd;
  }

  lemma LongHeader(data: seq<byte>, pos: nat, l: Label)
    requires LabelOk(l) && !Packable(l)
    requires pos + |EncodeLabel(l)| <= |data|
    requires data[pos..pos + |EncodeLabel(l)|] == EncodeLabel(l)
    ensures LabelHeader(data, pos) == Ok((l.ndel, l.nadd, pos + |EncodeLabel(l)| - l.nadd))
  {
    var e := EncodeLabel(l);
    var d := EncodeLen(l.ndel);
    var a := EncodeLen(l.nadd);
    assert e == [0] + d + a + l.text;
    assert data[pos] == e[0] == 0;
    SliceOfSlice(data, pos, e, 1, 1 + |d|);
    assert e[1..1 + |d|] == d;
    ReadLenOfEncoding(data, pos + 1, l.ndel);
    var p2 := pos + 1 + |d|;
    SliceOfSlice(data, pos, e, 1 + |d|, 1 + |d| + |a|);
    assert e[1 + |d|..1 + |d| + |a|] == a;
    ReadLenOfEncoding(data, p2, l.nadd);
  }
}

=== FILE: records.dfy ===
/** The records of the .3d item stream (rose_create.py:148-233) as a closed
    set of kinds, each with the bytes it occupies. The decoder in the
    Decoder module follows the script's chain of range tests; this module
    states the same layout as a table, parses one record into a `Record`
    value and writes one back out. */
module Records {
  import opened Bytes
  import opened Results
  import opened Primitives

  /** The opcode families, one per branch of the script's dispatch. */
  datatype Kind =
    | StyleKind      // 0x00-0x05
    | ReservedKind   // 0x06-0x0e, 0x14-0x1e, 0x20-0x2f, 0x34-0x3f
    | MoveKind       // 0x0f
    | DateKind       // 0x10-0x13
    | ErrorKind      // 0x1f
    | XSectKind      // 0x30-0x33
    | LineKind       // 0x40-0x7f
    | NodeKind       // 0x80-0xff

  function KindOf(op: byte): Kind {
    if op <= 0x05 then StyleKind
    else if op == 0x0f then MoveKind
    else if 0x10 <= op <= 0x13 then DateKind
    else if op == 0x1f then ErrorKind
    else if 0x30 <= op <= 0x33 then XSectKind
    else if 0x40 <= op <= 0x7f then LineKind
    else if 0x80 <= op then NodeKind
    else ReservedKind
  }

  /** The bytes a record carries after its opcode and after any label. */
  function FixedSize(op: byte): nat {
    match KindOf(op)
    case MoveKind => 12
    case DateKind => [0, 2, 3, 4][op - 0x10]
    case ErrorKind => 20
    case XSectKind => if Bit(op, 1) then 16 else 8
    case LineKind => 12
    case NodeKind => 12
    case _ => 0
  }

  /** Whether a label field follows the opcode: always for XSECT and
      LABEL/NODE, and for a LINE unless its flag 0x20 says the label is
      unchanged. */
  predicate HasLabel(op: byte) {
    || KindOf(op) == XSectKind
    || KindOf(op) == NodeKind
    || (KindOf(op) == LineKind && !Bit(op, 5))
  }

  /** The opcodes with no payload at all are exactly the style markers,
      the reserved codes and the empty DATE 0x10. */
  lemma EmptyRecords(op: byte)
    ensures !HasLabel(op) && FixedSize(op) == 0 <==>
              (op <= 0x0e || op == 0x10 || 0x14 <= op <= 0x1e || 0x20 <= op <= 0x2f || 0x34 <= op <= 0x3f)
  {
  }

  /** One decoded record. Payloads the script reads and discards are kept
      as raw bytes; a LINE keeps its opcode, whose low six bits
      (`byte & 0x3f`) are the leg's flags. */
  datatype Record =
    | Style(code: byte)
    | Reserved(op: byte)
    | Move(to: Point)
    | Date(op: byte, days: seq<byte>)
    | ErrorInfo(stats: seq<byte>)
    | XSect(op: byte, station: Label, dims: seq<byte>)
    | Line(op: byte, leg: Option<Label>, to: Point)
    | Node(op: byte, station: Label, at: Point)

  /** The opcode byte a record is written with. */
  function OpOf(r: Record): byte {
    match r
    case Style(c) => c
    case Reserved(op) => op
    case Move(_) => 0x0f
    case Date(op, _) => op
    case ErrorInfo(_) => 0x1f
    case XSect(op, _, _) => op
    case Line(op, _, _) => op
    case Node(op, _, _) => op
  }

  /** A record that the format can hold: opcode in its family's range,
      payloads of the table's sizes, complete ASCII labels, 32-bit points,
      and a LINE label present exactly when flag 0x20 is clear. */
  predicate WellFormed(r: Record) {
    match r
    case Style(c) => c <= 0x05
    case Reserved(op) => KindOf(op) == ReservedKind
    case Move(p) => PointInRange(p)
    case Date(op, d) => KindOf(op) == DateKind && |d| == FixedSize(op)
    case ErrorInfo(d) => |d| == 20
    case XSect(op, l, d) => KindOf(op) == XSectKind && LabelOk(l) && |d| == FixedSize(op)
    case Line(op, l, p) =>
      && KindOf(op) == LineKind && PointInRange(p)
      && (l.None? <==> Bit(op, 5))
      && (l.Some? ==> LabelOk(l.value))
    case Node(op, l, p) => KindOf(op) == NodeKind && LabelOk(l) && PointInRange(p)
  }

  /** The bytes that follow a record's opcode. */
  function Payload(r: Record): seq<byte>
    requires WellFormed(r)
  {
    match r
    case Style(_) => []
    case Reserved(_) => []
    case Move(p) => PointBytes(p)
    case Date(_, d) => d
    case ErrorInfo(d) => d
    case XSect(_, l, d) => EncodeLabel(l) + d
    case Line(_, l, p) => if l.Some? then EncodeLabel(l.value) + PointBytes(p) else PointBytes(p)
    case Node(_, l, p) => EncodeLabel(l) + PointBytes(p)
  }

  /** The bytes of a well-formed record. */
  function Encode(r: Record): (s: seq<byte>)
    requires WellFormed(r)
    ensures |s| > 0 && s[0] == OpOf(r)
  {
    [OpOf(r)] + Payload(r)
  }

  /** A label read whole and followed by at least one more byte is
      complete: its text has all nadd bytes. */
  lemma LabelComplete(data: seq<byte>, pos: nat)
    requires ReadLabel(data, pos).Ok? && ReadLabel(data, pos).value.1 < |data|
    ensures LabelOk(ReadLabel(data, pos).value.0)
  {
  }

  /** An XSECT record: label, then four '<h' (8 bytes) or, with opcode
      bit 0x02, four '<i' (16 bytes). */
  function ParseXSect(data: seq<byte>, pos: nat, op: byte): (r: Result<(Record, nat)>)
    requires KindOf(op) == XSectKind
    ensures r.Ok? <==> ReadLabel(data, pos).Ok? && ReadLabel(data, pos).value.1 + FixedSize(op) <= |data|
    ensures r.Ok? ==> WellFormed(r.value.0) && OpOf(r.value.0) == op
    ensures r.Ok? ==> ReadLabel(data, pos).Ok? && r.value.1 == ReadLabel(data, pos).value.1 + FixedSize(op)
    ensures r.Ok? ==> r.value.1 <= |data|
  {
    var l :- ReadLabel(data, pos);
    var d :- ReadExact(data, l.1, FixedSize(op));
    LabelComplete(data, pos);
    Ok((XSect(op, l.0, d.0), d.1))
  }

  /** A LINE record: a label unless flag 0x20 is set, then the new
      position. */
  function ParseLine(data: seq<byte>, pos: nat, op: byte): (r: Result<(Record, nat)>)
    requires KindOf(op) == LineKind
    ensures Bit(op, 5) ==> (r.Ok? <==> pos + 12 <= |data|)
    ensures !Bit(op, 5) ==> (r.Ok? <==> ReadLabel(data, pos).Ok? && ReadLabel(data, pos).value.1 + 12 <= |data|)
    ensures r.Ok? ==> WellFormed(r.value.0) && OpOf(r.value.0) == op
    ensures r.Ok? && Bit(op, 5) ==> r.value.1 == pos + 12
    ensures r.Ok? && !Bit(op, 5) ==>
              ReadLabel(data, pos).Ok? && r.value.1 == ReadLabel(data, pos).value.1 + 12
    ensures r.Ok? ==> r.value.1 <= |data|
  {
    if Bit(op, 5) then
      var m :- ReadXyz(data, pos);
      Ok((Line(op, None, m.0), m.1))
    else
      var l :- ReadLabel(data, pos);
      var m :- ReadXyz(data, l.1);
      LabelComplete(data, pos);
      Ok((Line(op, Some(l.0), m.0), m.1))
  }

  /** A LABEL or NODE record: label, then the station position. */
  function ParseNode(data: seq<byte>, pos: nat, op: byte): (r: Result<(Record, nat)>)
    requires KindOf(op) == NodeKind
    ensures r.Ok? <==> ReadLabel(data, pos).Ok? && ReadLabel(data, pos).value.1 + 12 <= |data|
    ensures r.Ok? ==> WellFormed(r.value.0) && OpOf(r.value.0) == op
    ensures r.Ok? ==> ReadLabel(data, pos).Ok? && r.value.1 == ReadLabel(data, pos).value.1 + 12
    ensures r.Ok? ==> r.value.1 <= |data|
  {
    var l :- ReadLabel(data, pos);
    var m :- ReadXyz(data, l.1);
    LabelComplete(data, pos);
    Ok((Node(op, l.0, m.0), m.1))
  }

  /** Reads one record at pos: the opcode, then the label and fixed payload
      the table prescribes for its kind. The cursor moves past exactly
      1 + label + FixedSize(opcode) bytes. */
  function ParseRecord(data: seq<byte>, pos: nat): (r: Result<(Record, nat)>)
    ensures pos >= |data| ==> r == Err(PrematureEnd)
    ensures r.Ok? ==> pos < |data| && WellFormed(r.value.0) && OpOf(r.value.0) == data[pos]
    ensures r.Ok? && !HasLabel(data[pos]) ==> r.value.1 == pos + 1 + FixedSize(data[pos])
    ensures r.Ok? && HasLabel(data[pos]) ==>
              && ReadLabel(data, pos + 1).Ok?
              && r.value.1 == ReadLabel(data, pos + 1).value.1 + FixedSize(data[pos])
    ensures r.Ok? ==> r.value.1 <= |data|
  {
    if pos >= |data| then Err(PrematureEnd)
    else
      var op := data[pos];
      match KindOf(op)
      case StyleKind => Ok((Style(op), pos + 1))
      case ReservedKind => Ok((Reserved(op), pos + 1))
      case MoveKind =>
        var m :- ReadXyz(data, pos + 1);
        Ok((Move(m.0), m.1))
      case DateKind =>
        var d :- ReadExact(data, pos + 1, FixedSize(op));
        Ok((Date(op, d.0), d.1))
      case ErrorKind =>
        var d :- ReadExact(data, pos + 1, 20);
        Ok((ErrorInfo(d.0), d.1))
      case XSectKind => ParseXSect(data, pos + 1, op)
      case LineKind => ParseLine(data, pos + 1, op)
      case NodeKind => ParseNode(data, pos + 1, op)
  }

  /** When a record is read: an opcode without a label needs its fixed
      payload to fit; one with a label needs the label field to read (its
      counts, and an ASCII text) and the fixed payload to fit after it. A
      long-form label header with small counts, which no writer produces,
      is read like any other. */
  lemma ParseRecordOk(data: seq<byte>, pos: nat)
    requires pos < |data|
    ensures !HasLabel(data[pos]) ==> (ParseRecord(data, pos).Ok? <==> pos + 1 + FixedSize(data[pos]) <= |data|)
    ensures HasLabel(data[pos]) ==>
              (ParseRecord(data, pos).Ok? <==>
                 ReadLabel(data, pos + 1).Ok? && ReadLabel(data, pos + 1).value.1 + FixedSize(data[pos]) <= |data|)
  {
  }

  /** Parsing inverts encoding: a well-formed record written at pos is read
      back whole, and the cursor lands just past it. */
  lemma ParseEncode(data: seq<byte>, pos: nat, r: Record)
    requires WellFormed(r)
    requires pos + |Encode(r)| <= |data|
    requires data[pos..pos + |Encode(r)|] == Encode(r)
    ensures ParseRecord(data, pos) == Ok((r, pos + |Encode(r)|))
  {
    match r
    case XSect(_, _, _) => XSectRoundTrip(data, pos, r);
    case Line(_, _, _) =>
      if r.leg.Some? {
        LabelledLineRoundTrip(data, pos, r);
      } else {
        BareLineRoundTrip(data, pos, r);
      }
    case Node(_, _, _) => NodeRoundTrip(data, pos, r);
    case _ => UnlabelledRoundTrip(data, pos, r);
  }

  lemma UnlabelledRoundTrip(data: seq<byte>, pos: nat, r: Record)
    requires WellFormed(r) && !(r.XSect? || r.Line? || r.Node?)
    requires pos + |Encode(r)| <= |data| && data[pos..pos + |Encode(r)|] == Encode(r)
    ensures ParseRecord(data, pos) == Ok((r, pos + |Encode(r)|))
  {
    SplitWindow(data, pos, [OpOf(r)], Payload(r));
    assert data[pos] == data[pos..pos + 1][0];
    match r
    case Move(p) => ReadXyzOfPointBytes(data, pos + 1, p);
    case _ =>
  }

  lemma XSectRoundTrip(data: seq<byte>, pos: nat, r: Record)
    requires WellFormed(r) && r.XSect?
    requires pos + |Encode(r)| <= |data| && data[pos..pos + |Encode(r)|] == Encode(r)
    ensures ParseRecord(data, pos) == Ok((r, pos + |Encode(r)|))
  {
    LabelledPieces(data, pos, r.op, r.station, r.dims, Encode(r));
    XSectAt(data, pos, r);
  }

  lemma LabelledLineRoundTrip(data: seq<byte>, pos: nat, r: Record)
    requires WellFormed(r) && r.Line? && r.leg.Some?
    requires pos + |Encode(r)| <= |data| && data[pos..pos + |Encode(r)|] == Encode(r)
    ensures ParseRecord(data, pos) == Ok((r, pos + |Encode(r)|))
  {
    LabelledPieces(data, pos, r.op, r.leg.value, PointBytes(r.to), Encode(r));
    LabelledLineAt(data, pos, r);
  }

  lemma BareLineRoundTrip(data: seq<byte>, pos: nat, r: Record)
    requires WellFormed(r) && r.Line? && r.leg.None?
    requires pos + |Encode(r)| <= |data| && data[pos..pos + |Encode(r)|] == Encode(r)
    ensures ParseRecord(data, pos) == Ok((r, pos + |Encode(r)|))
  {
    var Line(op, _, p) := r;
    assert Encode(r) == [op] + PointBytes(p);
    SplitWindow(data, pos, [op], PointBytes(p));
    assert data[pos] == data[pos..pos + 1][0];
    BareLineOfEncoding(data, pos + 1, op, p);
    LineDispatch(data, pos, op);
  }

  lemma NodeRoundTrip(data: seq<byte>, pos: nat, r: Record)
    requires WellFormed(r) && r.Node?
    requires pos + |Encode(r)| <= |data| && data[pos..pos + |Encode(r)|] == Encode(r)
    ensures ParseRecord(data, pos) == Ok((r, pos + |Encode(r)|))
  {
    LabelledPieces(data, pos, r.op, r.station, PointBytes(r.at), Encode(r));
    NodeAt(data, pos, r);
  }

  /** The window of an opcode, a label field and a tail holds each in turn. */
  lemma LabelledPieces(data: seq<byte>, pos: nat, op: byte, l: Label, tail: seq<byte>, e: seq<byte>)
    requires LabelOk(l) && e == [op] + (EncodeLabel(l) + tail)
    requires pos + |e| <= |data| && data[pos..pos + |e|] == e
    ensures pos < |data| && data[pos] == op
    ensures pos + 1 + |EncodeLabel(l)| + |tail| == pos + |e| <= |data|
    ensures data[pos + 1..pos + 1 + |EncodeLabel(l)|] == EncodeLabel(l)
    ensures data[pos + 1 + |EncodeLabel(l)|..pos + 1 + |EncodeLabel(l)| + |tail|] == tail
  {
    ThreePieces(data, pos, op, EncodeLabel(l), tail, e);
  }

  lemma ThreePieces(data: seq<byte>, pos: nat, op: byte, a: seq<byte>, b: seq<byte>, e: seq<byte>)
    requires e == [op] + (a + b)
    requires pos + |e| <= |data| && data[pos..pos + |e|] == e
    ensures pos < |data| && data[pos] == op
    ensures pos + 1 + |a| + |b| == pos + |e|
    ensures data[pos + 1..pos + 1 + |a|] == a
    ensures data[pos + 1 + |a|..pos + 1 + |a| + |b|] == b
  {
    SplitWindow(data, pos, [op], a + b);
    assert data[pos] == data[pos..pos + 1][0];
    SplitWindow(data, pos + 1, a, b);
  }

  lemma XSectAt(data: seq<byte>, pos: nat, r: Record)
    requires WellFormed(r) && r.XSect?
    requires pos < |data| && data[pos] == r.op
    requires pos + 1 + |EncodeLabel(r.station)| + |r.dims| <= |data|
    requires data[pos + 1..pos + 1 + |EncodeLabel(r.station)|] == EncodeLabel(r.station)
    requires data[pos + 1 + |EncodeLabel(r.station)|..pos + 1 + |EncodeLabel(r.station)| + |r.dims|] == r.dims
    ensures ParseRecord(data, pos) == Ok((r, pos + 1 + |EncodeLabel(r.station)| + |r.dims|))
  {
    var XSect(op, l, d) := r;
    XSectOfEncoding(data, pos + 1, op, l, d);
    XSectDispatch(data, pos, op);
  }

  lemma LabelledLineAt(data: seq<byte>, pos: nat, r: Record)
    requires WellFormed(r) && r.Line? && r.leg.Some?
    requires pos < |data| && data[pos] == r.op
    requires pos + 1 + |EncodeLabel(r.leg.value)| + 12 <= |data|
    requires data[pos + 1..pos + 1 + |EncodeLabel(r.leg.value)|] == EncodeLabel(r.leg.value)
    requires data[pos + 1 + |EncodeLabel(r.leg.value)|..pos + 1 + |EncodeLabel(r.leg.value)| + 12] == PointBytes(r.to)
    ensures ParseRecord(data, pos) == Ok((r, pos + 1 + |EncodeLabel(r.leg.value)| + 12))
  {
    var Line(op, leg, p) := r;
    var l := leg.value;
    LabelledLineOfEncoding(data, pos + 1, op, l, p);
    LineDispatch(data, pos, op);
  }

  lemma NodeAt(data: seq<byte>, pos: nat, r: Record)
    requires WellFormed(r) && r.Node?
    requires pos < |data| && data[pos] == r.op
    requires pos + 1 + |EncodeLabel(r.station)| + 12 <= |data|
    requires data[pos + 1..pos + 1 + |EncodeLabel(r.station)|] == EncodeLabel(r.station)
    requires data[pos + 1 + |EncodeLabel(r.station)|..pos + 1 + |EncodeLabel(r.station)| + 12] == PointBytes(r.at)
    ensures ParseRecord(data, pos) == Ok((r, pos + 1 + |EncodeLabel(r.station)| + 12))
  {
    var Node(op, l, p) := r;
    NodeOfEncoding(data, pos + 1, op, l, p);
    NodeDispatch(data, pos, op);
  }

  lemma XSectDispatch(data: seq<byte>, pos: nat, op: byte)
    requires pos < |data| && data[pos] == op && KindOf(op) == XSectKind
    ensures ParseRecord(data, pos) == ParseXSect(data, pos + 1, op)
  {
  }

  lemma LineDispatch(data: seq<byte>, pos: nat, op: byte)
    requires pos < |data| && data[pos] == op && KindOf(op) == LineKind
    ensures ParseRecord(data, pos) == ParseLine(data, pos + 1, op)
  {
  }

  lemma NodeDispatch(data: seq<byte>, pos: nat, op: byte)
    requires pos < |data| && data[pos] == op && KindOf(op) == NodeKind
    ensures ParseRecord(data, pos) == ParseNode(data, pos + 1, op)
  {
  }

  /** A window holding a + b holds a, then b. */
  lemma SplitWindow(data: seq<byte>, pos: nat, a: seq<byte>, b: seq<byte>)
    requires pos + |a + b| <= |data| && data[pos..pos + |a + b|] == a + b
    ensures data[pos..pos + |a|] == a
    ensures data[pos + |a|..pos + |a| + |b|] == b
  {
    SliceOfSlice(data, pos, a + b, 0, |a|);
    assert (a + b)[0..|a|] == a;
    SliceOfSlice(data, pos, a + b, |a|, |a + b|);
    assert (a + b)[|a|..|a + b|] == b;
  }

  lemma XSectOfEncoding(data: seq<byte>, pos: nat, op: byte, l: Label, d: seq<byte>)
    requires WellFormed(XSect(op, l, d))
    requires pos + |EncodeLabel(l)| + |d| <= |data|
    requires data[pos..pos + |EncodeLabel(l)|] == EncodeLabel(l)
    requires data[pos + |EncodeLabel(l)|..pos + |EncodeLabel(l)| + |d|] == d
    ensures ParseXSect(data, pos, op) == Ok((XSect(op, l, d), pos + |EncodeLabel(l)| + |d|))
  {
    ReadLabelOfEncoding(data, pos, l);
  }

  lemma LabelledLineOfEncoding(data: seq<byte>, pos: nat, op: byte, l: Label, p: Point)
    requires WellFormed(Line(op, Some(l), p))
    requires pos + |EncodeLabel(l)| + 12 <= |data|
    requires data[pos..pos + |EncodeLabel(l)|] == EncodeLabel(l)
    requires data[pos + |EncodeLabel(l)|..pos + |EncodeLabel(l)| + 12] == PointBytes(p)
    ensures ParseLine(data, pos, op) == Ok((Line(op, Some(l), p), pos + |EncodeLabel(l)| + 12))
  {
    ReadLabelOfEncoding(data, pos, l);
    ReadXyzOfPointBytes(data, pos + |EncodeLabel(l)|, p);
  }

  lemma BareLineOfEncoding(data: seq<byte>, pos: nat, op: byte, p: Point)
    requires WellFormed(Line(op, None, p))
    requires pos + 12 <= |data|
    requires data[pos..pos + 12] == PointBytes(p)
    ensures ParseLine(data, pos, op) == Ok((Line(op, None, p), pos + 12))
  {
    ReadXyzOfPointBytes(data, pos, p);
  }

  lemma NodeOfEncoding(data: seq<byte>, pos: nat, op: byte, l: Label, p: Point)
    requires WellFormed(Node(op, l, p))
    requires pos + |EncodeLabel(l)| + 12 <= |data|
    requires data[pos..pos + |EncodeLabel(l)|] == EncodeLabel(l)
    requires data[pos + |EncodeLabel(l)|..pos + |EncodeLabel(l)| + 12] == PointBytes(p)
    ensures ParseNode(data, pos, op) == Ok((Node(op, l, p), pos + |EncodeLabel(l)| + 12))
  {
    ReadLabelOfEncoding(data, pos, l);
    ReadXyzOfPointBytes(data, pos + |EncodeLabel(l)|, p);
  }
}

=== FILE: results.dfy ===
/** Failure-compatible result types shared by every stage of the decoder.

    Every way in which the script can end without drawing a rose has its own
    `Fault`; the comment beside each names the Python exception raised there. */
module Results {

  datatype Option<+T> = None | Some(value: T)

  datatype Fault =
    | NotSurvexFile        // IOError: first line lacks the file signature
    | BadVersionMarker     // IOError: second line does not start with 'v'
    | VersionNotInteger    // ValueError: int() rejects the version text
    | VersionTooOld        // IOError: version below 8
    | TitleNotUtf8         // UnicodeDecodeError on the title
    | BadTimestamp         // IOError: fourth line does not start with '@'
    | ExtendedElevation    // IOError: flags byte has bit 0x80 set
    | PrematureEnd         // IOError: no opcode byte left before the end marker
    | Truncated            // struct.error / TypeError: a field is cut short
    | LabelNotAscii        // UnicodeDecodeError: a label byte is 0x80 or above
    | NoPosition           // NameError: a LINE before any MOVE
    | NoSectors            // ZeroDivisionError / IndexError: sector count below 1

  datatype Result<+T> = Ok(value: T) | Err(fault: Fault) {

    predicate IsFailure() {
      Err?
    }

    function PropagateFailure<U>(): Result<U>
      requires Err?
    {
      Err(fault)
    }

    function Extract(): T
      requires Ok?
    {
      value
    }
  }
}

=== FILE: streams.dfy ===
/** Whole item streams: the loop of rose_create.py:139-233 over many records.
    Over records read one after another with the opcode table, the loop's
    result is the effect of those records applied in order; the end marker
    is two zero bytes in a row, or one when the current style is already
    0x00. */
module Streams {
  import opened Bytes
  import opened Results
  import opened Primitives
  import opened Legs
  import opened Records
  import opened Decoder

  predicate AllWellFormed(recs: seq<Record>) {
    forall i | 0 <= i < |recs| :: WellFormed(recs[i])
  }

  /** The records applied in order, without any reading. */
  function Run(cfg: Config, st: State, recs: seq<Record>): (r: Result<State>)
    requires Shaped(st.rose, cfg.ns) && AllWellFormed(recs)
    ensures r.Ok? ==> Shaped(r.value.rose, cfg.ns)
    ensures r.Ok? && Balanced(st.rose) ==> Balanced(r.value.rose)
    decreases |recs|
  {
    if |recs| == 0 then Ok(st)
    else
      var s :- Apply(cfg, st, recs[0]);
      Run(cfg, s, recs[1..])
  }

  /** No record of the sequence meets the end condition on the way. */
  predicate Quiet(cfg: Config, st: State, recs: seq<Record>)
    requires Shaped(st.rose, cfg.ns) && AllWellFormed(recs)
    decreases |recs|
  {
    |recs| == 0 ||
    (&& !Ends(st, recs[0])
     && (Apply(cfg, st, recs[0]).Ok? ==> Quiet(cfg, Apply(cfg, st, recs[0]).value, recs[1..])))
  }

  /** n records read one after another with the opcode table. */
  function ParseAll(data: seq<byte>, pos: nat, n: nat): (r: Result<(seq<Record>, nat)>)
    ensures r.Ok? ==> |r.value.0| == n && AllWellFormed(r.value.0)
    ensures r.Ok? && n > 0 ==> pos < r.value.1 <= |data|
    decreases n
  {
    if n == 0 then Ok(([], pos))
    else
      var first :- ParseRecord(data, pos);
      var rest :- ParseAll(data, first.1, n - 1);
      Ok(([first.0] + rest.0, rest.1))
  }

  /** The first record of a successful ParseAll, and the rest after it. */
  lemma ParseAllUncons(data: seq<byte>, pos: nat, recs: seq<Record>, end: nat)
    requires |recs| > 0 && ParseAll(data, pos, |recs|) == Ok((recs, end))
    ensures ParseRecord(data, pos).Ok? && ParseRecord(data, pos).value.0 == recs[0]
    ensures ParseAll(data, ParseRecord(data, pos).value.1, |recs| - 1) == Ok((recs[1..], end))
  {
    var first := ParseRecord(data, pos).value;
    var rest := ParseAll(data, first.1, |recs| - 1).value;
    assert [first.0] + rest.0 == recs;
  }

  /** The first record of a quiet sequence that applies cleanly neither ends
      the loop nor fails, and the rest is quiet and applies cleanly after it. */
  lemma QuietUncons(cfg: Config, st: State, recs: seq<Record>)
    requires Shaped(st.rose, cfg.ns) && AllWellFormed(recs) && |recs| > 0
    requires Quiet(cfg, st, recs) && Run(cfg, st, recs).Ok?
    ensures !Ends(st, recs[0]) && Apply(cfg, st, recs[0]).Ok?
    ensures AllWellFormed(recs[1..])
    ensures Quiet(cfg, Apply(cfg, st, recs[0]).value, recs[1..])
    ensures Run(cfg, Apply(cfg, st, recs[0]).value, recs[1..]) == Run(cfg, st, recs)
  {
  }

  /** The loop over records the table reads, none of which ends it and all
      of which apply cleanly, arrives where applying them in order does. */
  lemma {:induction false} DecodeParsed(cfg: Config, st: State, data: seq<byte>, pos: nat, recs: seq<Record>, end: nat)
    requires Shaped(st.rose, cfg.ns)
    requires ParseAll(data, pos, |recs|) == Ok((recs, end))
    requires Quiet(cfg, st, recs) && Run(cfg, st, recs).Ok?
    ensures DecodeRecords(cfg, st, data, pos) == DecodeRecords(cfg, Run(cfg, st, recs).value, data, end)
    decreases |recs|
  {
    if |recs| > 0 {
      ParseAllUncons(data, pos, recs, end);
      QuietUncons(cfg, st, recs);
      var next := ParseRecord(data, pos).value.1;
      var s := Apply(cfg, st, recs[0]).value;
      StepOfParsed(cfg, st, data, pos, recs[0], next);
      DecodeParsed(cfg, s, data, next, recs[1..], end);
    }
  }

  /** The end marker: one zero byte when the style is already 0x00, two
      otherwise (the first only sets the style). */
  lemma EndMarker(cfg: Config, st: State, data: seq<byte>, pos: nat)
    requires Shaped(st.rose, cfg.ns)
    requires pos + 2 <= |data| && data[pos] == 0 && data[pos + 1] == 0
    ensures DecodeRecords(cfg, st, data, pos) ==
            Ok((st.(style := 0), if st.style == 0 then pos + 1 else pos + 2))
  {
    if st.style != 0 {
      assert Step(cfg, st, data, pos) == Ok(Continue(st.(style := 0), pos + 1));
    }
  }

  /** Records read one after another with the opcode table and followed by
      the end marker: the loop stops just past the marker with the state
      those records produce, whatever it held before. */
  lemma DecodeTerminated(cfg: Config, st: State, data: seq<byte>, pos: nat, recs: seq<Record>, end: nat)
    requires Shaped(st.rose, cfg.ns)
    requires ParseAll(data, pos, |recs|) == Ok((recs, end))
    requires end + 2 <= |data| && data[end] == 0 && data[end + 1] == 0
    requires Quiet(cfg, st, recs) && Run(cfg, st, recs).Ok?
    ensures DecodeRecords(cfg, st, data, pos).Ok?
    ensures DecodeRecords(cfg, st, data, pos).value.0 == Run(cfg, st, recs).value.(style := 0)
    ensures DecodeRecords(cfg, st, data, pos).value.1 == if Run(cfg, st, recs).value.style == 0 then end + 1 else end + 2
  {
    DecodeParsed(cfg, st, data, pos, recs, end);
    EndMarker(cfg, Run(cfg, st, recs).value, data, end);
  }

  /** The failure side of DecodeTerminated: when the pass after a run of
      records fails (a short read, a non-ASCII label, a LINE with no
      position, a binned leg with no sectors, or no data left), the loop
      fails with that fault; it never resumes further on. */
  lemma DecodeFails(cfg: Config, st: State, data: seq<byte>, pos: nat, recs: seq<Record>, end: nat)
    requires Shaped(st.rose, cfg.ns)
    requires ParseAll(data, pos, |recs|) == Ok((recs, end))
    requires Quiet(cfg, st, recs) && Run(cfg, st, recs).Ok?
    requires Step(cfg, Run(cfg, st, recs).value, data, end).Err?
    ensures DecodeRecords(cfg, st, data, pos) == Err(Step(cfg, Run(cfg, st, recs).value, data, end).fault)
  {
    DecodeParsed(cfg, st, data, pos, recs, end);
  }

  /** STYLE 0x00 read while the style is not 0x00 only sets the style. */
  lemma ZeroSetsStyle(cfg: Config, st: State, data: seq<byte>, pos: nat)
    requires Shaped(st.rose, cfg.ns) && st.style != 0
    requires pos < |data| && data[pos] == 0x00
    ensures DecodeRecords(cfg, st, data, pos) == DecodeRecords(cfg, st.(style := 0), data, pos + 1)
  {
    assert Step(cfg, st, data, pos) == Ok(Continue(st.(style := 0), pos + 1));
  }

  /** Under style 0x00, a MOVE and then a zero byte end the loop with the
      position the MOVE read. */
  lemma MoveThenZero(cfg: Config, st: State, data: seq<byte>, pos: nat)
    requires Shaped(st.rose, cfg.ns) && st.style == 0
    requires pos + 14 <= |data| && data[pos] == 0x0f && data[pos + 13] == 0x00
    ensures DecodeRecords(cfg, st, data, pos) ==
            Ok((st.(at := Some(PointBefore(data, pos + 13))), pos + 14))
  {
    var moved := st.(at := Some(PointBefore(data, pos + 13)));
    assert Step(cfg, st, data, pos) == Ok(Continue(moved, pos + 13));
    assert Step(cfg, moved, data, pos + 13) == Ok(Stop(moved, pos + 14));
  }

  /** A MOVE between the style byte and the final zero does not reset the
      style, so from the starting style 0xff `00 0f <any 12 bytes> 00` ends
      the loop at its last byte, with the position the MOVE read and nothing
      else changed. */
  lemma MoveBetweenZeros(cfg: Config, st: State, data: seq<byte>)
    requires Shaped(st.rose, cfg.ns) && st.style == 0xff
    requires |data| == 15 && data[0] == 0x00 && data[1] == 0x0f && data[14] == 0x00
    ensures DecodeRecords(cfg, st, data, 0) ==
            Ok((st.(style := 0, at := Some(PointBefore(data, 14))), 15))
  {
    ZeroSetsStyle(cfg, st, data, 0);
    MoveThenZero(cfg, st.(style := 0), data, 1);
  }

  /** One zero byte alone is not a complete stream: from the starting style
      0xff it only sets the style to 0x00, and the data runs out. */
  lemma SingleZeroIsNotEnough(cfg: Config, st: State, data: seq<byte>)
    requires Shaped(st.rose, cfg.ns) && st.style == 0xff
    requires |data| == 1 && data[0] == 0x00
    ensures DecodeRecords(cfg, st, data, 0) == Err(PrematureEnd)
  {
    ZeroSetsStyle(cfg, st, data, 0);
  }
}
